=== FILE: README.md ===
# Wine shop core, modelled in Dafny

This project models the storefront logic of a Next.js wine shop. The shop keeps a
cart, signs visitors in against a mock account list kept on the device, manages
a product catalog, places orders through an orders API backed by a database,
lists a visitor's orders, lets an administrator move orders through their
statuses, and registers accounts through a registration API. The home page
rotates a banner of featured wines.

Each component is one module:

| module | component |
|---|---|
| `Cart` | the cart reducer and its totals |
| `Auth` | the session reducer and the mock account store (register, login, logout, account merge) |
| `Catalog` | product add, update, delete and lookup |
| `Orders` | the order record, per-user selection and newest-first ordering |
| `OrderStatus` | status badges, the transitions the admin panel offers, the status timeline |
| `Admin` | the admin panel: loading, revenue, pending count, user count, per-user orders, status updates |
| `Checkout` | order submission from the checkout page |
| `ProductsPage` | the product list filter, sidebar clicks and the page title |
| `AuthPage` | validation and routing of the login and registration forms |
| `OrdersPage` | fetching a visitor's orders with the on-device fallback, and the customer's order actions |
| `OrdersApi` | the orders endpoint: POST with rollback, GET with the user filter |
| `RegisterApi` | the registration endpoint |
| `HeroBanner` | the carousel |
| `Decimal`, `Seqs`, `Wrappers` | shared helpers: price strings and decimal rendering, filtering, `Option` |

Everything the code does through the browser, the database or the clock
becomes a parameter. This covers local storage contents, the database's
answers, the time, generated ids, the password hash and lower-casing. Every
operation is a pure function from those inputs to the result and the new
state.

A price is a string such as `"55,000"`. The cart and checkout read it by
deleting every `.` and `,` and parsing the remaining digits (`Decimal.ParsePrice`).

## Model

| member | source | states |
|---|---|---|
| Cart.CalculateTotals | app/contexts/cart-context.tsx:73-82 | The total is the sum over the lines of parsed price times quantity, and the item count is the sum of the quantities; the lines are unchanged. |
| Cart.WithTotals | app/contexts/cart-context.tsx:73-82 | Recomputing the totals keeps the lines and makes total and count agree with them; on a cart whose totals already agree it changes nothing. |
| Cart.Increment | app/contexts/cart-context.tsx:40-42 | Every line with the given id gains one unit, and every other line is unchanged. |
| Cart.SetQuantity | app/contexts/cart-context.tsx:59-61 | Every line with the given id takes the new quantity, and every other line is unchanged. |
| Cart.Without | app/contexts/cart-context.tsx:50 | No line with the removed id is left. |
| Cart.Reduce | app/contexts/cart-context.tsx:34-71 | Clearing gives the empty cart, and loading gives the loaded state verbatim. Every other action leaves totals consistent with the lines. |
| Cart.TotalAppend | app/contexts/cart-context.tsx:74-79 | Appending a line adds its amount to the total and its quantity to the count. |
| Cart.TotalUpdateAt | app/contexts/cart-context.tsx:74-79 | Replacing one line changes the total and the count by exactly the difference of that line. |
| Cart.AddExistingItem | app/contexts/cart-context.tsx:36-43 | Adding a product already in the cart increments only its line, raises the total by one unit price and the count by one. |
| Cart.OneMoreUnit | app/contexts/cart-context.tsx:75-76 | One more unit of a line adds exactly one parsed unit price to its amount. |
| Cart.IncrementAtUniqueId | app/contexts/cart-context.tsx:40-42 | With unique ids, incrementing by id is an update of exactly that one position. |
| Cart.AddNewItem | app/contexts/cart-context.tsx:44-46 | Adding a product not in the cart appends one line with quantity 1, raising the total by its price and the count by one. |
| Cart.AddTwiceIsOneLine | app/contexts/cart-context.tsx:36-46 | Adding the same new product twice gives one line with quantity 2, not two lines. |
| Cart.RemoveItemKeepsOthers | app/contexts/cart-context.tsx:49-51 | Removal drops exactly the lines with that id, keeps every other line in its order, and does nothing for an absent id. |
| Cart.UpdateToNonPositiveRemoves | app/contexts/cart-context.tsx:53-57 | Setting a quantity of zero or less is the same as removing the product. |
| Cart.UpdateToPositiveSets | app/contexts/cart-context.tsx:59-62 | A positive quantity replaces the quantity of exactly the matching line; an absent id changes nothing. |
| Cart.WithoutPreserves | app/contexts/cart-context.tsx:50 | Removal keeps prices parseable, ids unique and quantities positive. |
| Cart.WithoutKeepsIdsUnique | app/contexts/cart-context.tsx:50 | Filtering out an id keeps the remaining ids unique. |
| Cart.IncrementPreserves | app/contexts/cart-context.tsx:40-42 | Incrementing keeps prices parseable, ids unique and quantities positive. |
| Cart.SetQuantityPreserves | app/contexts/cart-context.tsx:59-61 | Setting a positive quantity keeps prices parseable, ids unique and quantities positive. |
| Cart.AppendPreserves | app/contexts/cart-context.tsx:45-46 | Appending a fresh line with a positive quantity keeps the cart well formed. |
| Cart.ReducePreservesWellFormed | app/contexts/cart-context.tsx:34-71 | From a well-formed cart, every action with a parseable price and a well-formed load leads to a well-formed cart. This means unique ids, positive quantities, and a total and count matching the lines. |
| Cart.ReduceAll | app/contexts/cart-context.tsx:34-71 | Any run of such actions ends in a well-formed cart. |
| Cart.ReachableCartsAreWellFormed | app/contexts/cart-context.tsx:84-89 | Starting from the provider's empty cart, every cart reached by runs whose added prices are valid and whose loaded carts are well formed is well formed. |
| Cart.LoadCartKeepsStaleTotals | app/contexts/cart-context.tsx:66-67 | Loading a saved cart does not recompute totals, so a saved state with a stale total is kept as is. |
| Decimal.DigitValue | app/contexts/cart-context.tsx:75 | A decimal digit's value is below ten. |
| Decimal.DigitChar | app/contexts/cart-context.tsx:75 | The digit character for a value below ten is a digit with that value. |
| Decimal.ParsePrice | app/contexts/cart-context.tsx:75 | A price made only of digits parses to the decimal value of those digits. |
| Decimal.StripSeparators | app/contexts/cart-context.tsx:75 | Deleting `.` and `,` leaves no separator, and leaves only digits when the price has only digits and separators. |
| Decimal.NatToString | app/api/orders/route.ts:42 | Rendering a number gives a non-empty digit string without a leading zero. |
| Decimal.Pad3 | app/contexts/cart-context.tsx:75 | A three-digit group is three digits. |
| Decimal.DigitsValueAppend | app/contexts/cart-context.tsx:75 | The value of concatenated digit strings is the left value shifted by the right length plus the right value. |
| Decimal.NatToStringRoundTrip | app/api/orders/route.ts:42 | Reading back a rendered number gives the number. |
| Decimal.StripAppend | app/contexts/cart-context.tsx:75 | Separator deletion distributes over concatenation. |
| Decimal.StripDigits | app/contexts/cart-context.tsx:75 | A digit string has no separators to delete. |
| Decimal.PriceCharsAppend | app/contexts/cart-context.tsx:75 | A concatenation is a price string iff both halves are, and has a digit iff either half has. |
| Decimal.SeparatorIgnored | app/contexts/cart-context.tsx:75 | Inserting a `.` or `,` anywhere in a valid price does not change its parsed value. |
| Decimal.GroupShape | app/contexts/cart-context.tsx:75 | A number written with thousands separators is a valid price whose digits spell the number. |
| Decimal.Pad3Value | app/contexts/cart-context.tsx:75 | A zero-padded group reads back as its value. |
| Decimal.ParseGroupedPrice | app/contexts/cart-context.tsx:75 | Parsing a number written with thousands separators, `.` or `,`, gives the number. |
| Decimal.Price55000 | app/contexts/cart-context.tsx:75 | The price string "55,000" parses to 55000. |
| Decimal.Price150000 | app/contexts/cart-context.tsx:75 | The price string "150,000" parses to 150000. |
| Auth.Reduce | app/contexts/auth-context.tsx:35-74 | Login start sets loading and keeps the session. Success stores the user, signs in and sets the admin flag iff the role is admin. Failure and logout clear the session. Loading a saved user signs in with its role's admin flag. |
| Auth.ReducePreservesConsistent | app/contexts/auth-context.tsx:35-74 | Every action keeps the session consistent: signed in iff a user is present, and admin only for a signed-in admin user. |
| Auth.ReduceAll | app/contexts/auth-context.tsx:35-74 | Any run of actions from a consistent session ends consistent. |
| Auth.ReachableSessionsConsistent | app/contexts/auth-context.tsx:162-167 | The provider's initial session is consistent, and so is every session reached from it. |
| Auth.MergeSaved | app/contexts/auth-context.tsx:121-138 | The merged list has at most one account more than the device copy and has an administrator iff memory has one. Its ordinary accounts are exactly the device copy's ordinary accounts. |
| Auth.LoadAccounts | app/contexts/auth-context.tsx:121-138 | Loading keeps an administrator iff memory has one. With a device copy every ordinary account comes from it; without one memory is left as it is. |
| Auth.MergeKeepsSingleAdmin | app/contexts/auth-context.tsx:121-138 | Merging saved accounts puts the in-memory administrator first and drops every saved administrator, so exactly one remains. Every saved ordinary account survives the merge. |
| Auth.LoadedDefaultsLeadWithAdmin | app/contexts/auth-context.tsx:121-138 | Loading any device copy into the default accounts leaves the default administrator first and no other administrator. |
| Auth.StartUpAsWritten | app/contexts/auth-context.tsx:140-159 | Start-up as written keeps the saved session and puts an administrator first. It either leaves the device copy alone or saves the new list over it. |
| Auth.StartUp | app/contexts/auth-context.tsx:140-159 | Corrected start-up: the default administrator first and no other administrator, with the device copy and session unchanged. |
| Auth.StartUpDuplicatesAdmin | app/contexts/auth-context.tsx:143-157 | Unless a saved account carries "admin@ruouvan.com", start-up as written lists the default administrator twice and saves that list. |
| Auth.ReloadRemovesDuplicateAdmin | app/contexts/auth-context.tsx:121-159 | The next load after start-up as written leaves the default administrator first and alone. |
| Auth.FreshDeviceHasTwoAdmins | app/contexts/auth-context.tsx:140-159 | On a device with nothing saved, start-up as written gives four accounts, the first two both the default administrator. |
| Auth.Register | app/contexts/auth-context.tsx:187-234 | Registration ends not loading, and signed in exactly when it succeeds. |
| Auth.RegisterOutcomes | app/contexts/auth-context.tsx:187-234 | A taken email fails and changes neither the saved accounts nor the saved session. A fresh email appends one ordinary-user account, saves the list and the session, and never signs in as admin. |
| Auth.Login | app/contexts/auth-context.tsx:237-266 | Login ends not loading and signed in exactly when it succeeds; an admin answer implies success. |
| Auth.LoginSucceedsIffCredentialsMatch | app/contexts/auth-context.tsx:237-266 | Login succeeds iff some account matches both email and password. The admin flag and the session user come from the first match. A failed login keeps the saved session. |
| Auth.SignOut | app/contexts/auth-context.tsx:268-271 | Logout forgets the saved session, keeps the accounts, and clears the signed-in state. |
| Auth.FlowsPreserveConsistent | app/contexts/auth-context.tsx:187-271 | Registering, logging in and logging out keep a consistent session consistent. |
| Auth.AllUsers | app/contexts/auth-context.tsx:285-297 | The user list has one entry per merged account, in order, with its id and role. |
| Catalog.NextId | app/contexts/products-context.tsx:248 | The new id is one more than the largest id, at least 1, and above every existing id. |
| Catalog.AddProduct | app/contexts/products-context.tsx:247-254 | Adding puts the draft with the new id in front of the unchanged list; the id is not used by any existing product. |
| Catalog.UpdateProduct | app/contexts/products-context.tsx:256-258 | Every product with the id takes the patch's fields, and every other product is unchanged. |
| Catalog.DeleteProduct | app/contexts/products-context.tsx:260-262 | No product with the id remains, and every other product remains. |
| Catalog.GetProductById | app/contexts/products-context.tsx:264-266 | Lookup finds a product iff one has the id, and returns the first such product. |
| Catalog.AddProductFresh | app/contexts/products-context.tsx:247-254 | Adding keeps ids unique, and the new product can be looked up by its id. |
| Catalog.GetFindsHead | app/contexts/products-context.tsx:264-266 | Lookup of the first product's id returns the first product. |
| Catalog.DeleteThenGet | app/contexts/products-context.tsx:260-266 | After deleting an id, looking it up finds nothing. |
| Catalog.DeleteKeepsOrder | app/contexts/products-context.tsx:260-262 | Deleting keeps the remaining products in order, and deleting an absent id changes nothing. |
| Catalog.DeletePreservesUniqueIds | app/contexts/products-context.tsx:260-262 | Deleting keeps ids unique. |
| Catalog.UpdateUnknownIdIsNoOp | app/contexts/products-context.tsx:256-258 | Updating an absent id changes nothing. |
| Catalog.EmptyPatchIsIdentity | app/contexts/products-context.tsx:256-258 | An empty patch changes nothing. |
| Catalog.ApplyPatch | app/contexts/products-context.tsx:257 | The patched product keeps its id unless the patch sets one, takes the patch's id if it does, and an empty patch changes nothing. |
| Catalog.ApplyPatchIdempotent | app/contexts/products-context.tsx:257 | Applying the same patch twice equals applying it once. |
| Catalog.UpdatePreservesUniqueIds | app/contexts/products-context.tsx:256-258 | An update whose patch carries no id keeps ids unique. |
| Catalog.UpdateMovesId | app/contexts/products-context.tsx:256-266 | An update whose patch sets a fresh id moves the product: the old id finds nothing and the new id finds the patched product. |
| Catalog.UpdateThenGet | app/contexts/products-context.tsx:256-266 | After an update without an id in the patch, looking the id up gives the patched first match, or nothing if there was none. |
| Orders.OrdersOf | app/admin/page.tsx:95-100 | The selection holds exactly the orders placed by the user, in their stored order. |
| Orders.Insert | app/admin/page.tsx:84-86 | Inserting into a newest-first list keeps it newest first and adds exactly that order. |
| Orders.SortNewestFirst | app/admin/page.tsx:84-86 | Sorting gives a newest-first permutation of the orders. |
| OrderStatus.Parse | app/admin/page.tsx:116-131 | A recognised status string is the name of the status it parses to. |
| OrderStatus.ParseName | app/admin/page.tsx:116-131 | Every status name parses back to its status. |
| OrderStatus.BadgeLabels | app/admin/page.tsx:116-131 | The badge reads "Không xác định" exactly for an unknown status, and distinct statuses get distinct labels. |
| OrderStatus.Badge | app/admin/page.tsx:116-131 | A badge is never empty, and reads "Không xác định" exactly when the status is not recognised. |
| OrderStatus.Stage | app/admin/page.tsx:551-584 | Only a cancelled order has no timeline stage. Stages are below 4, and stage 0 is exactly pending. |
| OrderStatus.TimelineLit | app/admin/page.tsx:551-584 | A lit step means a recognised status that is not cancelled, and a delivered order lights every step. |
| OrderStatus.OfferedNext | app/admin/page.tsx:358-393 | At most two next statuses are offered. |
| OrderStatus.OfferedTransitions | app/admin/page.tsx:446-481 | The offered moves are: pending to confirmed or cancelled, confirmed to shipping, and shipping to delivered. Every offered move goes forward or cancels. Nothing is offered for delivered, cancelled or unknown statuses. |
| OrderStatus.TimelineMonotone | app/admin/page.tsx:551-584 | Step k of the timeline is lit iff the status has reached step k. Lit steps form a prefix, and a cancelled order lights none. |
| Admin.Load | app/admin/page.tsx:75-88 | An administrator gets the user list of the account store and a newest-first permutation of the device's order list, which itself is kept; anyone else sees nothing change. |
| Admin.PendingCount | app/admin/page.tsx:237 | The pending count is the number of orders whose status is "pending", so at most the number of orders. |
| Admin.Revenue | app/admin/page.tsx:133-135 | Revenue of no orders is 0 and of one order is its total. When no total is negative, revenue is non-negative and at least every single order's total. |
| Admin.RevenueIsReduce | app/admin/page.tsx:133-135 | Revenue equals the page's `reduce`: the totals added from the first order to the last, starting from 0. |
| Admin.TotalUsers | app/admin/page.tsx:137-139 | The user count is the number of accounts that are not administrators. |
| Admin.LoadedUserCount | app/admin/page.tsx:77-80 | After loading, the user counter equals the number of ordinary accounts in the merged account list the store holds. |
| Admin.ViewUserOrders | app/admin/page.tsx:95-100 | Selecting a user shows exactly that user's saved orders, in saved order, and leaves the order list and its device copy alone. |
| Admin.SetStatus | app/admin/page.tsx:141-143 | The order with the id takes the new status, and every other order is unchanged. |
| Admin.UpdateOrderStatus | app/admin/page.tsx:141-153 | The update is applied to the list and saved. A selected user's order list is refreshed from the updated list. |
| Admin.SetStatusKeepsRevenue | app/admin/page.tsx:133-135 | A status change leaves revenue, the sum of order totals, unchanged. |
| Admin.RevenueAppend | app/admin/page.tsx:133-135 | Revenue of two lists together is the sum of their revenues. |
| Admin.SetStatusPendingCount | app/admin/page.tsx:141-143 | When order ids are unique, changing one order's status changes the pending count only as that order leaves or enters "pending". |
| Admin.OrdersOfSetStatus | app/admin/page.tsx:141-153 | A status change moves no order between users: a user's orders after it are their orders before it with the same change applied. |
| Admin.ViewThenUpdateCommutes | app/admin/page.tsx:95-153 | Opening a user's orders and then changing a status gives the same panel as changing the status and then opening that user's orders. |
| Admin.SetStatusAbsent | app/admin/page.tsx:141-143 | Updating an absent id changes nothing. |
| Checkout.Submit | app/checkout/page.tsx:70-119 | An incomplete form sends nothing; a complete one sends the payload. The page reports the order placed iff the save reports success and the device backup completes; only then is the cart cleared and the backup kept. Otherwise cart and device list are unchanged. |
| Checkout.BackupFailureRetryDuplicates | app/checkout/page.tsx:94-115 | When the save reports success but the device backup throws, the page reports failure and keeps the cart, so pressing again sends the same order a second time. |
| Checkout.PageSubmit | app/checkout/page.tsx:121-128 | Nothing is sent, and nothing reaches the server, unless the cart is non-empty and the visitor is signed in. |
| Checkout.PlacedOrderTotal | app/checkout/page.tsx:67-68 | For a consistent cart, the charged total is the sum of the summary's line amounts plus shipping, and the backup is exactly the placed order. |
| Checkout.SummaryMatchesTotal | app/checkout/page.tsx:287-310 | With valid prices, the summary's line amounts, parsed by the page's own parser and added top to bottom, equal the cart total shown as the subtotal. |
| Checkout.SummaryTotalAppend | app/checkout/page.tsx:287-301 | A line added at the bottom of the summary adds its amount to the sum. |
| Checkout.WorkedExample | app/checkout/page.tsx:67-68 | Adding a wine priced 55000 (such as "55,000", `Decimal.Price55000`) twice and a different wine priced 150000 once gives a cart total of 260000 over 3 units, charged 290000 with shipping. |
| Checkout.WorkedExampleFirstWine | app/contexts/cart-context.tsx:36-46 | Adding a wine priced 55000 twice to an empty cart gives one line of quantity 2, total 110000. |
| Checkout.WorkedExampleSecondWine | app/contexts/cart-context.tsx:44-46 | A different wine priced 150000 added to a cart of one 110000 line of two units is appended, giving 260000 over 3 units. |
| ProductsPage.FilteredWines | app/products/page.tsx:36-60 | The list is the products, in order, that pass the search or the sidebar filters. |
| ProductsPage.Keep | app/products/page.tsx:36-60 | With a search a wine is kept iff it matches. Without one, a chosen volume keeps only that volume, and with no category, type or volume restriction every wine is kept. |
| ProductsPage.SearchOverridesSidebar | app/products/page.tsx:38-45 | A non-empty search ignores category, wine type and volume, and matches on name, type or description. |
| ProductsPage.GiftsCategory | app/products/page.tsx:48-49 | The gift category shows only gifts. |
| ProductsPage.WineTypeSelection | app/products/page.tsx:50-52 | A selected wine type under all products shows only that type. |
| ProductsPage.VolumeFilter | app/products/page.tsx:55-57 | A volume choice shows only that volume. |
| ProductsPage.FilterShape | app/products/page.tsx:36-60 | The result is a subsequence of the catalog, and the initial page with no search shows everything. |
| ProductsPage.CategoryClick | app/products/page.tsx:62-70 | A category click selects it, clears the wine type, and expands the all-products group iff it was chosen. |
| ProductsPage.WineTypeClick | app/products/page.tsx:72-75 | A wine type click selects all products and that type. |
| ProductsPage.OnSearch | app/products/page.tsx:29-34 | A non-empty search sets the results title and clears the wine type; an empty one changes nothing. |
| ProductsPage.PageTitle | app/products/page.tsx:82-86 | The title is the search title, else the wine type, else the category. |
| ProductsPage.TitleAfterWineType | app/products/page.tsx:72-86 | After a wine type click without a search, the title is that wine type. |
| AuthPage.SubmitLogin | app/auth/page.tsx:51-73 | An empty field shows the fill-in message without calling login; otherwise login is called. |
| AuthPage.LoginRouting | app/auth/page.tsx:60-72 | An administrator goes to /admin, any other successful login to /, and a failure shows the credentials message. |
| AuthPage.RegisterCheckOrder | app/auth/page.tsx:79-92 | The first failing check decides the message: missing fields, then mismatched confirmation, then a password under 6 characters. |
| AuthPage.RegisterCheck | app/auth/page.tsx:79-92 | Passing means every field is filled, the confirmation matches and the password has at least 6 characters. A failure gives one of the three form messages. |
| AuthPage.SubmitRegister | app/auth/page.tsx:75-102 | A failing check shows its message without calling register; otherwise register is called. |
| AuthPage.RegisterResultRouting | app/auth/page.tsx:94-101 | Register is called iff all checks pass. A refusal shows "Email đã tồn tại!", success goes to /, and the user is never admin. |
| OrdersPage.SignedInId | app/orders/page.tsx:44 | Fetching needs a signed-in user with a non-empty id. |
| OrdersPage.FetchOrders | app/orders/page.tsx:43-73 | Without a signed-in user nothing changes. Otherwise loading ends, and a successful fetch shows the server's orders. |
| OrdersPage.FallbackShowsOwnOrdersNewestFirst | app/orders/page.tsx:53-69 | On a failed or thrown fetch, the page shows exactly the user's saved orders, newest first. |
| OrdersPage.CustomerActionsAgreeWithAdmin | app/orders/page.tsx:280-292 | Cancelling is offered only where the admin panel would also offer cancelling. Cancel and buy-again are never offered together, and neither is offered for an unknown status. |
| OrdersPage.CancelOffered | app/orders/page.tsx:280 | Cancel is offered exactly for an order whose status parses as pending. |
| OrdersPage.BuyAgainOffered | app/orders/page.tsx:290 | "Buy again" is offered exactly for an order whose status parses as delivered. |
| OrdersApi.DigitPrefix | app/api/orders/route.ts:84 | The leading digits are a prefix made of digits, followed by a non-digit or the end. |
| OrdersApi.ParseInt | app/api/orders/route.ts:84 | Parsing gives no number exactly when the string does not start with a digit. |
| OrdersApi.ParseRendered | app/api/orders/route.ts:84 | Parsing a rendered user id gives the id back. |
| OrdersApi.ToRows | app/api/orders/route.ts:100-108 | One item row per cart line, each under the order id. |
| OrdersApi.ItemsRoundTrip | app/api/orders/route.ts:100-108 | Reading back the item rows written for an order gives the cart lines. |
| OrdersApi.Post | app/api/orders/route.ts:66-128 | An unreadable body is a 500 and a missing field a 400, both with nothing stored. The answer is success iff the body is complete and both inserts succeed. A failed order insert stores nothing. |
| OrdersApi.FailedItemsRollBack | app/api/orders/route.ts:110-117 | When the item insert fails and the delete succeeds, the answer is 500 and the database is as before. |
| OrdersApi.FailedDeleteLeavesOrphan | app/api/orders/route.ts:110-117 | When the delete fails too, the order row remains without items. |
| OrdersApi.ItemsOf | app/api/orders/route.ts:14-22 | An order's nested items are exactly the item rows under that order, in stored order. |
| OrdersApi.FromRows | app/api/orders/route.ts:44-51 | Each listed item carries its row's product id, name, price, image, quantity and type, one per row in order. |
| OrdersApi.ToOrders | app/api/orders/route.ts:39-56 | Every row is transformed, in order. |
| OrdersApi.Selected | app/api/orders/route.ts:26-29 | A non-empty user id selects exactly that user's rows, in stored order; no id selects all. |
| OrdersApi.Get | app/api/orders/route.ts:5-63 | A listing is a newest-first permutation of the transformed selected rows. It fails iff the query fails or a selected row has no user id. |
| OrdersApi.GetListsOnlyThatUser | app/api/orders/route.ts:26-29 | A filtered listing holds only that user's orders. |
| OrdersApi.FilteredGetFailsOnlyOnError | app/api/orders/route.ts:31-58 | A filtered query that succeeds always lists the user's transformed orders, newest first. |
| OrdersApi.PostThenGet | app/api/orders/route.ts:5-128 | An order posted successfully is listed back for its user with the same id, items, customer data, total, status and time. |
| OrdersApi.StoredItemsReadBack | app/api/orders/route.ts:100-110 | The items stored for a fresh order id read back as exactly its cart lines. |
| OrdersApi.SelectedIncludes | app/api/orders/route.ts:26-29 | A stored row of the user is among the rows selected for that user. |
| RegisterApi.TrimStart | app/api/register/route.ts:55-56 | Leading-trim gives a suffix of the string. |
| RegisterApi.TrimmedIsFixed | app/api/register/route.ts:55-56 | A string without surrounding whitespace is its own trim. |
| RegisterApi.TrimIdempotent | app/api/register/route.ts:55-56 | Trimming twice equals trimming once. |
| RegisterApi.Trim | app/api/register/route.ts:55-56 | Trimming never lengthens a string and leaves no whitespace at either end. |
| RegisterApi.TrimSlice | app/api/register/route.ts:55-56 | The trim is a contiguous slice with only whitespace before and after it; it is empty iff the string is all whitespace. |
| RegisterApi.Normalise | app/api/register/route.ts:56 | The stored email is never longer than the lower-cased input. |
| RegisterApi.StoredRowIsTrimmed | app/api/register/route.ts:55-56 | The stored name and email are already trimmed, so trimming them again changes nothing. |
| RegisterApi.Handle | app/api/register/route.ts:5-121 | Missing fields give 400, and a password under 6 characters gives 400, both storing nothing. Otherwise either nothing is stored or exactly the new row is appended, and a registration answers 200. |
| RegisterApi.PostAsWritten | app/api/register/route.ts:25-110 | The handler as written stores at most one row. A success echoes the email exactly as posted. |
| RegisterApi.Post | app/api/register/route.ts:25-110 | The corrected handler stores at most one row. |
| RegisterApi.PostKeepsEmailsUnique | app/api/register/route.ts:25-71 | The corrected handler never stores two accounts with the same stored email. |
| RegisterApi.PostAcceptsNewEmail | app/api/register/route.ts:51-110 | With the database answering, an unused normalised email is registered and the stored account is returned. |
| RegisterApi.PostRefusesTakenEmail | app/api/register/route.ts:25-42 | A normalised email already stored is refused with 409 and nothing is stored. |
| RegisterApi.OneMatchAtMost | app/api/register/route.ts:25-29 | With unique emails, a lookup matches at most one row. |
| RegisterApi.HandleInserts | app/api/register/route.ts:51-96 | A valid registration whose key is unused is stored, and is refused as unverifiable when the read-back misses it. |
| RegisterApi.AsWrittenUnverified | app/api/register/route.ts:51-96 | When the stored form differs from the posted email, the handler as written stores the account and then answers 500. |
| RegisterApi.AsWrittenCreatesUnverifiable | app/api/register/route.ts:51-96 | Registering "A" stores the account "a" and answers 500. |
| RegisterApi.AsWrittenDuplicates | app/api/register/route.ts:25-56 | When an account already holds the stored form of the posted email, the handler as written stores a second account with that email. |
| RegisterApi.AsWrittenDuplicatesEmail | app/api/register/route.ts:25-56 | With "a" registered, registering "A" leaves two accounts with the email "a". |
| HeroBanner.Next | app/components/hero-banner.tsx:66-68 | The next slide stays in range and wraps from the last to the first. |
| HeroBanner.Prev | app/components/hero-banner.tsx:70-72 | The previous slide stays in range and wraps from the first to the last. |
| HeroBanner.PrevNextInverse | app/components/hero-banner.tsx:66-72 | Previous undoes next, and next undoes previous. |
| HeroBanner.Step | app/components/hero-banner.tsx:56-80 | Every control keeps the slide in range. The play button alone flips play; a paused timer does nothing; a dot selects its slide. |
| HeroBanner.Run | app/components/hero-banner.tsx:52-80 | Any sequence of controls keeps the slide in range. |
| HeroBanner.ShownSlideExists | app/components/hero-banner.tsx:208 | The slide whose title is shown always exists. |
| HeroBanner.Ticks | app/components/hero-banner.tsx:56-64 | Timer ticks keep the slide in range and the play state. |
| HeroBanner.TicksAdvance | app/components/hero-banner.tsx:56-64 | While playing, n ticks advance the slide by n modulo the slide count. |
| HeroBanner.FullRoundReturns | app/components/hero-banner.tsx:56-64 | A full round of ticks returns to the same slide. |
| HeroBanner.PausedTicksStay | app/components/hero-banner.tsx:56-57 | While paused, ticks change nothing. |
| HeroBanner.ProductLink | app/components/hero-banner.tsx:82-84 | A slide's button opens /wine/ followed by the digits of its product id. |
| Seqs.Filter | app/contexts/cart-context.tsx:50 | The result is a subsequence of the input (relative order kept) that holds every element passing the predicate and no element failing it. |
| Seqs.SubsequenceRefl | app/contexts/cart-context.tsx:50 | Every list is a subsequence of itself. |
| Seqs.FilterAppend | app/contexts/cart-context.tsx:50 | Filtering distributes over concatenation. |
| Seqs.FilterCounts | app/contexts/products-context.tsx:260-262 | A kept value occurs in the filtered list exactly as often as in the original; a dropped value not at all. |
| Seqs.FilterKeepsKeysDistinct | app/contexts/products-context.tsx:260-262 | Filtering a list whose elements have pairwise distinct keys leaves them pairwise distinct. |
| Seqs.FindIndex | app/contexts/auth-context.tsx:247 | The index found is the first element that passes, or -1 when none does. |

## Left out

- Browser storage, JSON reading and writing, `fetch`, `async`, alerts and navigation are left out. The stored values and the outcomes of calls are parameters; a route is a string in the result.
- The database (Supabase) is replaced by lists of rows plus one boolean per call saying whether it succeeds. Joins, ordering and the `single`/`maybeSingle` row-count rules are written out.
- Clocks, `Date.now`, `Math.random` order ids and ISO timestamps are parameters. Times are integers, and sorting compares those integers.
- bcrypt hashing is a parameter (`hash`).
- `toLowerCase` is a function parameter (`lower`), because Unicode case mapping is not modelled. `RegisterApi.AsciiLower` is an ASCII-only instance, used only to exhibit the findings.
- String lengths count characters, not UTF-16 code units. This affects the 6-character password checks in `app/auth/page.tsx` and `app/api/register/route.ts`.
- Cart.Reduce: requires every price to be a valid price string (digits with `.` or `,` separators and at least one digit). A price that `Number.parseInt` turns into NaN is not modelled.
- Decimal.ParsePrice: parses only valid price strings. The NaN result of `Number.parseInt` on a price without digits is not modelled.
- JavaScript numbers are modelled as unbounded integers. Rounding above 2^53 is not modelled.
- OrdersApi.ParseInt: models `Number.parseInt` on leading decimal digits only. Leading whitespace, signs and the `0x`/`0X` hexadecimal prefix are not modelled: the model reads "0x10" as 0 where `Number.parseInt` gives 16. User ids are rendered natural numbers.
- OrdersApi.Get: the database's comparison of the text user-id filter with the integer column is modelled as comparing the filter with the column's decimal rendering. A non-numeric user id therefore selects no rows and the model answers an empty listing, whereas the database rejects the filter and app/api/orders/route.ts:27-35 answers 500 (a caller can pass `queryOk` false for it, but the model does not tie the two). An order's nested items are listed in stored order.
- Catalog.AddProduct: computes the new id from the list it prepends to. The code computes it from the product list captured at the last render (products-context.tsx:248) and prepends to the latest list (line 253), so two additions before a re-render would get the same id. Batched state updates are not modelled.
- Checkout.Submit: the save helper (app/contexts/cart-context.tsx:110-140) catches its own errors and reports them as a refusal. The only exception the page catches is the device backup throwing after a successful save (a corrupt stored order list or full storage), modelled as `backupOk` false. The page then reports failure although the orders endpoint has stored the order, and pressing again sends it twice (`Checkout.BackupFailureRetryDuplicates`). A refused save can also leave an order on the server: an order row left without items when both the item insert and the rollback fail (`OrdersApi.FailedDeleteLeavesOrphan`), or a response lost after the endpoint committed. The model tracks only what the save reports (`saveReported`), not what the server holds.
- Cart.ReachableCartsAreWellFormed: covers runs whose loaded carts are well formed. The mount-time load of the saved cart (app/contexts/cart-context.tsx:91-97) dispatches whatever state was stored, and `LOAD_CART` does not recompute totals (`Cart.LoadCartKeepsStaleTotals`), so a stored stale total is shown until the next action recomputes it.
- Orders.SortNewestFirst: proves ordering and permutation only. Which of two orders with equal times comes first is not stated.
- The module-level start-up at app/contexts/auth-context.tsx:140-159 is modelled as `Auth.StartUpAsWritten` over the default accounts and the device copy. Its own check looks for "admin@ruouvan.com", which no default account carries, so it puts a second copy of the administrator in front and saves that list (see Findings). The next load (`Auth.LoadAccounts`, re-applied by every register, login and user listing) removes the copy again. The other members start from a loaded list and do not rely on start-up.
- The branch at app/api/register/route.ts:73-79 (insert reports success but returns no row) cannot occur in the row model, where a successful insert always returns the row.
- The order-update route `app/api/orders/[id]/route.ts` (used by the cancel button) is not part of this model. The cancel button's effect is modelled only as the status it requests.
- Price formatting with `Intl.NumberFormat`, date formatting, JSX layout, images and the 5-second timer spacing are presentation and are left out.

## Findings

| source | as written | input that shows it | evidently intended | confidence | as-written member | corrected member |
|---|---|---|---|---|---|---|
| app/api/register/route.ts:51-96 | The account is stored with the lower-cased, trimmed email, but the read-back looks up the email exactly as posted. | Register with email "A": the row "a" is stored, the read-back finds no "A", and the answer is 500 although the account exists. | Look the account up by the stored (normalised) email, answering 200. | not executed; high | RegisterApi.AsWrittenCreatesUnverifiable | RegisterApi.PostAcceptsNewEmail |
| app/api/register/route.ts:25-56 | The duplicate check looks up the email exactly as posted, so a differently cased or padded form of a stored email passes. | With "a" registered, register "A": the check finds no "A" and a second row "a" is stored (assuming no unique constraint on the column). | Check for the normalised email, refusing with 409. | not executed; medium | RegisterApi.AsWrittenDuplicatesEmail | RegisterApi.PostKeepsEmailsUnique |
| app/contexts/auth-context.tsx:143-157 | The start-up checks for an account with email "admin@ruouvan.com" but inserts the administrator with email "kisutaybac@gmail.com", so the check fails on every later start-up as well. | A device with nothing saved: the defaults have no "admin@ruouvan.com", so the administrator is inserted a second time and the list of four is saved. | Check for the administrator it inserts (or for any administrator), so nothing is added when one is present. | not executed; high | Auth.FreshDeviceHasTwoAdmins | Auth.StartUp |

=== FILE: admin.dfy ===
/**
 * The admin panel's logic: dashboard counters, the per-user order view and
 * status updates over the order list kept on the device.
 */
module Admin {
  import opened Wrappers
  import opened Orders
  import Auth
  import Seqs

  /**
   * The panel's state: the user list, all orders (newest first once loaded),
   * the user whose orders are being viewed, that user's orders, and the
   * device copy of the order list.
   */
  datatype AdminView = AdminView(
    users: seq<Auth.Profile>, orders: seq<Order>, selectedUser: Option<Auth.Profile>, userOrders: seq<Order>,
    savedOrders: seq<Order>)

  /**
   * Loading the panel as an administrator: the user list from the account
   * store, and the device's orders, newest first. Nothing else changes.
   */
  function Load(isAdmin: bool, store: Auth.Store, view: AdminView): (r: AdminView)
    ensures isAdmin ==> r.users == Auth.AllUsers(store)
    ensures isAdmin ==> NewestFirst(r.orders) && multiset(r.orders) == multiset(view.savedOrders)
    ensures isAdmin ==>
      r.savedOrders == view.savedOrders && r.selectedUser == view.selectedUser && r.userOrders == view.userOrders
    ensures !isAdmin ==> r == view
  {
    if isAdmin then view.(users := Auth.AllUsers(store), orders := SortNewestFirst(view.savedOrders)) else view
  }

  /**
   * Sum of all order totals: a single order's revenue is its total, and with
   * no negative total the revenue is at least every single total.
   * `RevenueIsReduce`: it equals the page's left-to-right `reduce`.
   */
  function Revenue(orders: seq<Order>): (r: int)
    ensures |orders| == 0 ==> r == 0
    ensures |orders| == 1 ==> r == orders[0].total
    ensures (forall i :: 0 <= i < |orders| ==> orders[i].total >= 0) ==>
      r >= 0 && forall i :: 0 <= i < |orders| ==> orders[i].total <= r
  {
    if |orders| == 0 then 0
    else
      var tail := orders[1..];
      assert forall i :: 0 <= i < |tail| ==> tail[i] == orders[i + 1];
      orders[0].total + Revenue(tail)
  }

  /** The admin page's `reduce`: totals added from the first order to the last, starting from 0. */
  function ReduceTotals(orders: seq<Order>): int {
    if |orders| == 0 then 0 else ReduceTotals(orders[..|orders| - 1]) + orders[|orders| - 1].total
  }

  /** Revenue, summed from the front, is the page's fold from the back. */
  lemma {:induction false} RevenueIsReduce(orders: seq<Order>)
    ensures Revenue(orders) == ReduceTotals(orders)
  {
    if |orders| > 0 {
      var init := orders[..|orders| - 1];
      var last := orders[|orders| - 1];
      assert orders == init + [last];
      RevenueAppend(init, [last]);
      RevenueIsReduce(init);
    }
  }

  predicate IsPending(o: Order) {
    o.status == "pending"
  }

  /** The number of orders still pending: the length of the pending orders (the admin page's `filter(...).length`). */
  function PendingCount(orders: seq<Order>): (n: nat)
    ensures n <= |orders|
    ensures n == |Seqs.Filter(orders, IsPending)|
  {
    Seqs.CountIsFilterLength(orders, IsPending);
    Seqs.CountWhere(orders, IsPending)
  }

  predicate IsCustomer(u: Auth.Profile) {
    u.role != Auth.AdminRole
  }

  /** The number of accounts that are not administrators. */
  function TotalUsers(users: seq<Auth.Profile>): (n: nat)
    ensures n <= |users|
    ensures n == |Seqs.Filter(users, IsCustomer)|
  {
    Seqs.CountIsFilterLength(users, IsCustomer);
    Seqs.CountWhere(users, IsCustomer)
  }

  predicate IsOrdinaryAccount(a: Auth.Account) {
    !Auth.IsAdminAccount(a)
  }

  /**
   * After loading, the panel's user counter counts exactly the ordinary
   * accounts of the merged account list the store holds.
   */
  lemma LoadedUserCount(store: Auth.Store, view: AdminView)
    ensures TotalUsers(Load(true, store, view).users)
      == Seqs.CountWhere(Auth.LoadAccounts(store.accounts, store.savedAccounts), IsOrdinaryAccount)
  {
    var loaded := Auth.LoadAccounts(store.accounts, store.savedAccounts);
    var users := Auth.AllUsers(store);
    assert forall i :: 0 <= i < |loaded| ==> IsOrdinaryAccount(loaded[i]) == IsCustomer(users[i]);
    Seqs.CountWhereAgree(loaded, users, IsOrdinaryAccount, IsCustomer);
  }

  /** Opens the order list of one user, read from the device copy. */
  function ViewUserOrders(view: AdminView, user: Auth.Profile): (r: AdminView)
    ensures r.selectedUser == Some(user) && r.orders == view.orders
    ensures forall i :: 0 <= i < |r.userOrders| ==> r.userOrders[i].userId == Some(user.id)
    ensures forall i :: 0 <= i < |view.savedOrders| && view.savedOrders[i].userId == Some(user.id) ==>
      view.savedOrders[i] in r.userOrders
    ensures Seqs.IsSubsequence(r.userOrders, view.savedOrders)
    ensures r.savedOrders == view.savedOrders
  {
    view.(selectedUser := Some(user), userOrders := OrdersOf(view.savedOrders, user.id))
  }

  /** Every order with this id gets the new status (any string is accepted); nothing else changes. */
  function SetStatus(orders: seq<Order>, orderId: string, status: string): (r: seq<Order>)
    ensures |r| == |orders|
    ensures forall i :: 0 <= i < |orders| ==>
      r[i] == if orders[i].id == orderId then orders[i].(status := status) else orders[i]
  {
    if |orders| == 0 then []
    else [if orders[0].id == orderId then orders[0].(status := status) else orders[0]]
         + SetStatus(orders[1..], orderId, status)
  }

  /**
   * A status update: the list and its device copy are rewritten, and the
   * per-user view is refreshed when a user is selected.
   */
  function UpdateOrderStatus(view: AdminView, orderId: string, status: string): (r: AdminView)
    ensures r.orders == r.savedOrders == SetStatus(view.orders, orderId, status)
    ensures r.selectedUser == view.selectedUser && r.users == view.users
    ensures view.selectedUser.None? ==> r.userOrders == view.userOrders
    ensures view.selectedUser.Some? ==> r.userOrders == OrdersOf(r.orders, view.selectedUser.value.id)
  {
    var updated := SetStatus(view.orders, orderId, status);
    var userOrders := if view.selectedUser.Some? then OrdersOf(updated, view.selectedUser.value.id) else view.userOrders;
    view.(orders := updated, userOrders := userOrders, savedOrders := updated)
  }

  // ---------------------------------------------------------------------------
  // Properties

  /** A status change moves no money: revenue is unchanged. */
  lemma {:induction false} SetStatusKeepsRevenue(orders: seq<Order>, orderId: string, status: string)
    ensures Revenue(SetStatus(orders, orderId, status)) == Revenue(orders)
  {
    if |orders| > 0 {
      SetStatusKeepsRevenue(orders[1..], orderId, status);
      assert SetStatus(orders, orderId, status)[1..] == SetStatus(orders[1..], orderId, status);
    }
  }

  /** Revenue is additive over concatenation, so it is the sum of per-order totals in any split. */
  lemma {:induction false} RevenueAppend(a: seq<Order>, b: seq<Order>)
    ensures Revenue(a + b) == Revenue(a) + Revenue(b)
  {
    if |a| == 0 {
      assert a + b == b;
    } else {
      assert (a + b)[1..] == a[1..] + b;
      RevenueAppend(a[1..], b);
    }
  }

  /**
   * Setting an order's status to pending or away from pending changes the
   * pending count by exactly one, when the order id is unique.
   */
  lemma SetStatusPendingCount(orders: seq<Order>, k: int, status: string)
    requires 0 <= k < |orders|
    requires forall j :: 0 <= j < |orders| && j != k ==> orders[j].id != orders[k].id
    ensures
      var before := if IsPending(orders[k]) then 1 else 0;
      var after := if status == "pending" then 1 else 0;
      PendingCount(SetStatus(orders, orders[k].id, status)) == PendingCount(orders) - before + after
  {
    SetStatusCountsPending(orders, k, status);
  }

  /** `SetStatusPendingCount`, stated on the count itself. */
  lemma {:induction false} SetStatusCountsPending(orders: seq<Order>, k: int, status: string)
    requires 0 <= k < |orders|
    requires forall j :: 0 <= j < |orders| && j != k ==> orders[j].id != orders[k].id
    ensures
      var before := if IsPending(orders[k]) then 1 else 0;
      var after := if status == "pending" then 1 else 0;
      Seqs.CountWhere(SetStatus(orders, orders[k].id, status), IsPending)
        == Seqs.CountWhere(orders, IsPending) - before + after
  {
    var id := orders[k].id;
    var r := SetStatus(orders, id, status);
    var tail := orders[1..];
    assert r[1..] == SetStatus(tail, id, status);
    if k > 0 {
      forall j | 0 <= j < |tail| && j != k - 1 ensures tail[j].id != tail[k - 1].id {
        assert tail[j] == orders[j + 1];
      }
      SetStatusCountsPending(tail, k - 1, status);
      assert r[0] == orders[0];
    } else {
      forall j | 0 <= j < |tail| ensures tail[j].id != id {
        assert tail[j] == orders[j + 1];
      }
      SetStatusAbsent(tail, id, status);
    }
  }

  /**
   * A status change never moves an order between users: a user's orders
   * after the change are that user's orders before it, with the same change
   * applied.
   */
  lemma {:induction false} OrdersOfSetStatus(orders: seq<Order>, userId: string, orderId: string, status: string)
    ensures OrdersOf(SetStatus(orders, orderId, status), userId) == SetStatus(OrdersOf(orders, userId), orderId, status)
  {
    if |orders| > 0 {
      var h := orders[0];
      var h' := if h.id == orderId then h.(status := status) else h;
      var updated := SetStatus(orders, orderId, status);
      assert updated == [h'] + SetStatus(orders[1..], orderId, status);
      OrdersOfSetStatus(orders[1..], userId, orderId, status);
      var tailView := OrdersOf(orders[1..], userId);
      if h.userId == Some(userId) {
        assert OrdersOf(orders, userId) == [h] + tailView;
        assert ([h] + tailView)[1..] == tailView;
      } else {
        assert OrdersOf(orders, userId) == tailView;
      }
    }
  }

  /**
   * Opening a user's orders and then changing a status gives the same panel
   * as changing the status and then opening that user's orders; either way
   * the user sees their orders from the panel list with the change applied.
   */
  lemma ViewThenUpdateCommutes(view: AdminView, user: Auth.Profile, orderId: string, status: string)
    ensures UpdateOrderStatus(ViewUserOrders(view, user), orderId, status)
         == ViewUserOrders(UpdateOrderStatus(view, orderId, status), user)
    ensures ViewUserOrders(UpdateOrderStatus(view, orderId, status), user).userOrders
         == SetStatus(OrdersOf(view.orders, user.id), orderId, status)
  {
    OrdersOfSetStatus(view.orders, user.id, orderId, status);
  }

  /** An id no order carries leaves the list as it is. */
  lemma SetStatusAbsent(orders: seq<Order>, orderId: string, status: string)
    requires forall j :: 0 <= j < |orders| ==> orders[j].id != orderId
    ensures SetStatus(orders, orderId, status) == orders
  {
  }
}

=== FILE: auth.dfy ===
/**
 * Authentication state: a five-action reducer over the current session,
 * and the mock credential store behind `register` and `login` (an
 * in-memory account list, re-merged from device storage before each
 * lookup, with the built-in administrator always kept at its head).
 */
module Auth {
  import opened Wrappers
  import Seqs

  /** The session record: what is kept about the signed-in visitor. */
  datatype User = User(id: string, name: string, email: string, avatar: Option<string>, role: Option<string>)

  datatype AuthState = AuthState(user: Option<User>, isAuthenticated: bool, isLoading: bool, isAdmin: bool)

  datatype AuthAction =
    | LoginStart
    | LoginSuccess(user: User)
    | LoginFailure
    | Logout
    | LoadUser(saved: Option<User>)

  /** The provider's state before the saved session has been read. */
  const InitialState := AuthState(None, false, true, false)

  const AdminRole := "admin"
  const UserRole := "user"

  /** Whether a (possibly absent) session user holds the administrator role. */
  predicate HoldsAdmin(u: Option<User>) {
    u.Some? && u.value.role == Some(AdminRole)
  }

  /** The session reducer. */
  function Reduce(s: AuthState, action: AuthAction): (r: AuthState)
    ensures action.LoginStart? ==>
      r.isLoading && r.user == s.user && r.isAuthenticated == s.isAuthenticated && r.isAdmin == s.isAdmin
    ensures action.LoginSuccess? ==>
      && r.user == Some(action.user) && r.isAuthenticated && !r.isLoading
      && (r.isAdmin <==> action.user.role == Some(AdminRole))
    ensures action.LoginFailure? || action.Logout? ==>
      r.user.None? && !r.isAuthenticated && !r.isAdmin && !r.isLoading
    ensures action.LoadUser? ==>
      && r.user == action.saved && !r.isLoading
      && (r.isAuthenticated <==> action.saved.Some?)
      && (r.isAdmin <==> HoldsAdmin(action.saved))
  {
    match action
    case LoginStart => s.(isLoading := true)
    case LoginSuccess(u) =>
      s.(user := Some(u), isAuthenticated := true, isAdmin := u.role == Some(AdminRole), isLoading := false)
    case LoginFailure => s.(user := None, isAuthenticated := false, isAdmin := false, isLoading := false)
    case Logout => s.(user := None, isAuthenticated := false, isAdmin := false, isLoading := false)
    case LoadUser(saved) =>
      s.(user := saved, isAuthenticated := saved.Some?, isAdmin := HoldsAdmin(saved), isLoading := false)
  }

  /**
   * The session's consistency: signed in exactly when a user is present, and
   * administrator exactly when that user has the administrator role.
   */
  predicate Consistent(s: AuthState) {
    && (s.isAuthenticated <==> s.user.Some?)
    && (s.isAdmin <==> HoldsAdmin(s.user))
  }

  lemma ReducePreservesConsistent(s: AuthState, action: AuthAction)
    requires Consistent(s)
    ensures Consistent(Reduce(s, action))
  {
  }

  /** The session after a run of actions. */
  function ReduceAll(s: AuthState, actions: seq<AuthAction>): (r: AuthState)
    requires Consistent(s)
    ensures Consistent(r)
    decreases |actions|
  {
    if |actions| == 0 then s
    else
      ReducePreservesConsistent(s, actions[0]);
      ReduceAll(Reduce(s, actions[0]), actions[1..])
  }

  /**
   * Every session reachable from the initial state is consistent; in
   * particular an administrator is always authenticated.
   */
  lemma ReachableSessionsConsistent(actions: seq<AuthAction>)
    ensures Consistent(InitialState)
    ensures
      var r := ReduceAll(InitialState, actions);
      && (r.isAuthenticated <==> r.user.Some?)
      && (r.isAdmin ==> r.isAuthenticated)
  {
  }

  // ---------------------------------------------------------------------------
  // The mock credential store

  /** A stored account, password included (the mock store keeps it in clear). */
  datatype Account = Account(
    id: string, name: string, email: string, password: string, avatar: string,
    role: string, phone: string, address: string, createdAt: string)

  const Placeholder := "/placeholder.svg?height=40&width=40"

  const DefaultAdmin := Account(
    "1", "Admin NETSAY", "kisutaybac@gmail.com", "123456", Placeholder,
    AdminRole, "0979 810 712", "Hoa Lac, Thach That, Hanoi, Vietnam", "2024-01-01")

  /** The accounts the store starts with. */
  const DefaultAccounts := [
    DefaultAdmin,
    Account("2", "Nguyễn Văn A", "user@ruouvan.com", "123456", Placeholder,
      UserRole, "0987 654 321", "123 Đường ABC, Quận 1, TP.HCM", "2024-01-15"),
    Account("3", "Trần Thị B", "customer@ruouvan.com", "123456", Placeholder,
      UserRole, "0912345678", "456 Đường XYZ, Quận 2, TP.HCM", "2024-02-01")
  ]

  /**
   * The in-memory accounts, the account list saved on the device (None when
   * absent or unreadable) and the saved session.
   */
  datatype Store = Store(accounts: seq<Account>, savedAccounts: Option<seq<Account>>, savedSession: Option<User>)

  predicate IsAdminAccount(a: Account) {
    a.role == AdminRole
  }

  predicate HasAdmin(accounts: seq<Account>) {
    exists i :: 0 <= i < |accounts| && IsAdminAccount(accounts[i])
  }

  /**
   * The merge done on every load: the saved accounts without any
   * administrator, preceded by the first in-memory administrator if there
   * is one.
   */
  function MergeSaved(memory: seq<Account>, saved: seq<Account>): (r: seq<Account>)
    ensures |r| <= |saved| + 1
    ensures HasAdmin(r) <==> HasAdmin(memory)
    ensures forall i :: 0 <= i < |r| && !IsAdminAccount(r[i]) ==> r[i] in saved
    ensures forall i :: 0 <= i < |saved| && !IsAdminAccount(saved[i]) ==> saved[i] in r
  {
    var k := Seqs.FindIndex(memory, IsAdminAccount);
    var others := Seqs.Filter(saved, (a: Account) => !IsAdminAccount(a));
    if k >= 0 then
      var r := [memory[k]] + others;
      assert IsAdminAccount(r[0]);
      forall i | 1 <= i < |r| ensures r[i] == others[i - 1] {}
      r
    else
      assert !HasAdmin(others);
      others
  }

  /** The in-memory accounts after re-reading the device copy. */
  function LoadAccounts(memory: seq<Account>, saved: Option<seq<Account>>): (r: seq<Account>)
    ensures HasAdmin(r) <==> HasAdmin(memory)
    ensures saved.Some? ==> forall i :: 0 <= i < |r| && !IsAdminAccount(r[i]) ==> r[i] in saved.value
    ensures saved.None? ==> r == memory
  {
    match saved
    case None => memory
    case Some(list) => MergeSaved(memory, list)
  }

  /**
   * After a merge, the head is the in-memory administrator and no other
   * account is an administrator; every saved non-administrator survives.
   */
  lemma MergeKeepsSingleAdmin(memory: seq<Account>, saved: seq<Account>)
    ensures HasAdmin(memory) ==>
      var r := MergeSaved(memory, saved);
      |r| > 0 && r[0] == memory[Seqs.FindIndex(memory, IsAdminAccount)]
      && forall i :: 1 <= i < |r| ==> !IsAdminAccount(r[i])
    ensures !HasAdmin(memory) ==> !HasAdmin(MergeSaved(memory, saved))
    ensures forall i :: 0 <= i < |saved| && !IsAdminAccount(saved[i]) ==> saved[i] in MergeSaved(memory, saved)
  {
    var k := Seqs.FindIndex(memory, IsAdminAccount);
    var others := Seqs.Filter(saved, (a: Account) => !IsAdminAccount(a));
    var r := MergeSaved(memory, saved);
    if k >= 0 {
      assert r == [memory[k]] + others;
      forall i | 1 <= i < |r| ensures !IsAdminAccount(r[i]) {
        assert r[i] == others[i - 1];
      }
      forall i | 0 <= i < |saved| && !IsAdminAccount(saved[i]) ensures saved[i] in r {
        assert saved[i] in others;
      }
    }
  }

  /** The email the start-up check looks for; no default account carries it. */
  const LegacyAdminEmail := "admin@ruouvan.com"

  predicate HasLegacyEmail(a: Account) {
    a.email == LegacyAdminEmail
  }

  /**
   * Start-up as written: the device copy is merged into the defaults, and
   * unless some account carries the legacy email, another copy of the
   * default administrator is put in front and the list is saved.
   */
  function StartUpAsWritten(saved: Option<seq<Account>>, session: Option<User>): (s: Store)
    ensures s.savedSession == session
    ensures |s.accounts| >= 1 && s.accounts[0].role == AdminRole
    ensures s.savedAccounts == saved || s.savedAccounts == Some(s.accounts)
  {
    var loaded := LoadAccounts(DefaultAccounts, saved);
    LoadedDefaultsLeadWithAdmin(saved);
    if Seqs.FindIndex(loaded, HasLegacyEmail) >= 0 then
      Store(loaded, saved, session)
    else
      var accounts := [DefaultAdmin] + loaded;
      Store(accounts, Some(accounts), session)
  }

  /**
   * Start-up as intended: the device copy is merged into the defaults, which
   * already puts the default administrator first, so nothing is added.
   */
  function StartUp(saved: Option<seq<Account>>, session: Option<User>): (s: Store)
    ensures s.savedSession == session && s.savedAccounts == saved
    ensures |s.accounts| >= 1 && s.accounts[0] == DefaultAdmin
    ensures forall i :: 1 <= i < |s.accounts| ==> !IsAdminAccount(s.accounts[i])
  {
    LoadedDefaultsLeadWithAdmin(saved);
    Store(LoadAccounts(DefaultAccounts, saved), saved, session)
  }

  /**
   * Loading the device copy into the default accounts leaves the default
   * administrator first and no other administrator.
   */
  lemma LoadedDefaultsLeadWithAdmin(saved: Option<seq<Account>>)
    ensures
      var loaded := LoadAccounts(DefaultAccounts, saved);
      |loaded| >= 1 && loaded[0] == DefaultAdmin
      && forall i :: 1 <= i < |loaded| ==> !IsAdminAccount(loaded[i])
  {
    assert IsAdminAccount(DefaultAccounts[0]);
    if saved.Some? {
      MergeKeepsSingleAdmin(DefaultAccounts, saved.value);
    }
  }

  /**
   * Unless an ordinary saved account happens to carry the legacy email, the
   * start-up as written leaves the default administrator in the list twice,
   * and saves that list to the device.
   */
  lemma StartUpDuplicatesAdmin(saved: Option<seq<Account>>, session: Option<User>)
    requires saved.Some? ==> forall i :: 0 <= i < |saved.value| ==> !HasLegacyEmail(saved.value[i])
    ensures
      var s := StartUpAsWritten(saved, session);
      |s.accounts| >= 2 && s.accounts[0] == s.accounts[1] == DefaultAdmin
      && s.savedAccounts == Some(s.accounts)
  {
    var loaded := LoadAccounts(DefaultAccounts, saved);
    LoadedDefaultsLeadWithAdmin(saved);
    if saved.Some? {
      forall i | 0 <= i < |loaded| ensures !HasLegacyEmail(loaded[i]) {
        if i > 0 {
          assert loaded[i] in saved.value;
        }
      }
    }
    assert Seqs.FindIndex(loaded, HasLegacyEmail) < 0;
  }

  /**
   * The duplicate lasts only until the next load (every login, registration
   * and user listing re-reads the device copy): that merge leaves the
   * default administrator first and alone.
   */
  lemma ReloadRemovesDuplicateAdmin(saved: Option<seq<Account>>, session: Option<User>)
    ensures
      var s := StartUpAsWritten(saved, session);
      var r := LoadAccounts(s.accounts, s.savedAccounts);
      |r| >= 1 && r[0] == DefaultAdmin && forall i :: 1 <= i < |r| ==> !IsAdminAccount(r[i])
  {
    var s := StartUpAsWritten(saved, session);
    LoadedDefaultsLeadWithAdmin(saved);
    assert s.accounts[0] == DefaultAdmin && IsAdminAccount(s.accounts[0]);
    if s.savedAccounts.Some? {
      MergeKeepsSingleAdmin(s.accounts, s.savedAccounts.value);
    }
  }

  /** A fresh device (nothing saved) starts with two copies of the administrator. */
  lemma FreshDeviceHasTwoAdmins()
    ensures
      var s := StartUpAsWritten(None, None);
      |s.accounts| == 4 && s.accounts[0] == s.accounts[1] == DefaultAdmin
  {
    StartUpDuplicatesAdmin(None, None);
  }

  /** The session record for an account (password and contact details dropped). */
  function SessionUser(a: Account): (u: User)
    ensures u.id == a.id && u.email == a.email && u.role == Some(a.role)
  {
    User(a.id, a.name, a.email, Some(a.avatar), Some(a.role))
  }

  predicate EmailTaken(accounts: seq<Account>, email: string) {
    exists i :: 0 <= i < |accounts| && accounts[i].email == email
  }

  datatype RegisterOutcome = RegisterOutcome(ok: bool, auth: AuthState, store: Store)

  /**
   * Registration against the mock store. The new account's id and creation
   * date (from the clock) are supplied by the caller.
   */
  function Register(auth: AuthState, store: Store, name: string, email: string, password: string,
                    newId: string, today: string): (out: RegisterOutcome)
    ensures out.auth.isAuthenticated == out.ok && !out.auth.isLoading
  {
    var started := Reduce(auth, LoginStart);
    var accounts := LoadAccounts(store.accounts, store.savedAccounts);
    if EmailTaken(accounts, email) then
      RegisterOutcome(false, Reduce(started, LoginFailure), store.(accounts := accounts))
    else
      var account := Account(newId, name, email, password, Placeholder, UserRole, "", "", today);
      var accounts' := accounts + [account];
      var user := SessionUser(account);
      RegisterOutcome(true, Reduce(started, LoginSuccess(user)), Store(accounts', Some(accounts'), Some(user)))
  }

  /**
   * A taken email fails and leaves the (re-merged) account list and the
   * saved copies unchanged; a fresh email appends exactly one account with
   * the ordinary user role and signs it in, never as administrator.
   */
  lemma RegisterOutcomes(auth: AuthState, store: Store, name: string, email: string, password: string,
                         newId: string, today: string)
    ensures
      var loaded := LoadAccounts(store.accounts, store.savedAccounts);
      var out := Register(auth, store, name, email, password, newId, today);
      && (EmailTaken(loaded, email) ==>
            && !out.ok && out.store.accounts == loaded
            && out.store.savedAccounts == store.savedAccounts
            && out.store.savedSession == store.savedSession
            && out.auth.user.None?)
      && (!EmailTaken(loaded, email) ==>
            && out.ok
            && |out.store.accounts| == |loaded| + 1
            && out.store.accounts[..|loaded|] == loaded
            && out.store.accounts[|loaded|].email == email
            && out.store.accounts[|loaded|].role == UserRole
            && out.store.savedAccounts == Some(out.store.accounts)
            && out.auth.user == out.store.savedSession
            && !out.auth.isAdmin)
  {
    var loaded := LoadAccounts(store.accounts, store.savedAccounts);
    var out := Register(auth, store, name, email, password, newId, today);
    if !EmailTaken(loaded, email) {
      assert out.store.accounts[..|loaded|] == loaded;
    }
  }

  datatype LoginResult = LoginResult(success: bool, isAdmin: bool)

  datatype LoginOutcome = LoginOutcome(result: LoginResult, auth: AuthState, store: Store)

  /** Credential check against the mock store: the first account matching both email and password. */
  function Login(auth: AuthState, store: Store, email: string, password: string): (out: LoginOutcome)
    ensures out.auth.isAuthenticated == out.result.success && !out.auth.isLoading
    ensures out.result.isAdmin ==> out.result.success
  {
    var started := Reduce(auth, LoginStart);
    var accounts := LoadAccounts(store.accounts, store.savedAccounts);
    var k := Seqs.FindIndex(accounts, (a: Account) => a.email == email && a.password == password);
    if k >= 0 then
      var user := SessionUser(accounts[k]);
      LoginOutcome(LoginResult(true, accounts[k].role == AdminRole),
                   Reduce(started, LoginSuccess(user)),
                   store.(accounts := accounts, savedSession := Some(user)))
    else
      LoginOutcome(LoginResult(false, false), Reduce(started, LoginFailure), store.(accounts := accounts))
  }

  /** Account `i` is the first whose email and password both match. */
  predicate FirstMatch(accounts: seq<Account>, email: string, password: string, i: int) {
    && 0 <= i < |accounts|
    && accounts[i].email == email && accounts[i].password == password
    && forall j :: 0 <= j < i ==> !(accounts[j].email == email && accounts[j].password == password)
  }

  /**
   * Login succeeds exactly when some account matches both email and
   * password; the administrator flag it returns is the first match's role,
   * and the session agrees with it. A failed login keeps the saved session.
   */
  lemma LoginSucceedsIffCredentialsMatch(auth: AuthState, store: Store, email: string, password: string)
    ensures
      var loaded := LoadAccounts(store.accounts, store.savedAccounts);
      var out := Login(auth, store, email, password);
      && (out.result.success <==>
            exists i :: 0 <= i < |loaded| && loaded[i].email == email && loaded[i].password == password)
      && (forall i :: FirstMatch(loaded, email, password, i) ==>
            out.result.isAdmin == (loaded[i].role == AdminRole) && out.auth.user == Some(SessionUser(loaded[i])))
      && out.auth.isAdmin == out.result.isAdmin
      && (!out.result.success ==> out.store.savedSession == store.savedSession)
  {
    var loaded := LoadAccounts(store.accounts, store.savedAccounts);
    var k := Seqs.FindIndex(loaded, (a: Account) => a.email == email && a.password == password);
    if k >= 0 {
      forall i | FirstMatch(loaded, email, password, i) ensures i == k {
        assert !(i < k) && !(k < i);
      }
    }
  }

  /** Signing out forgets the saved session and clears the state. */
  function SignOut(auth: AuthState, store: Store): (out: (AuthState, Store))
    ensures out.1.savedSession.None? && out.1.accounts == store.accounts
    ensures out.0.user.None? && !out.0.isAuthenticated && !out.0.isAdmin
  {
    (Reduce(auth, Logout), store.(savedSession := None))
  }

  /** Register, login and logout keep a consistent session consistent. */
  lemma FlowsPreserveConsistent(auth: AuthState, store: Store, name: string, email: string, password: string,
                                newId: string, today: string)
    requires Consistent(auth)
    ensures Consistent(Register(auth, store, name, email, password, newId, today).auth)
    ensures Consistent(Login(auth, store, email, password).auth)
    ensures Consistent(SignOut(auth, store).0)
  {
  }

  // ---------------------------------------------------------------------------
  // The account list as the admin panel reads it

  /** An account without its password. */
  datatype Profile = Profile(
    id: string, name: string, email: string, role: string, phone: string,
    address: string, createdAt: string, avatar: string)

  function ToProfile(a: Account): Profile {
    Profile(a.id, a.name, a.email, a.role, a.phone, a.address, a.createdAt, a.avatar)
  }

  /** Every account (after a re-merge), in order, without passwords. */
  function AllUsers(store: Store): (r: seq<Profile>)
    ensures
      var loaded := LoadAccounts(store.accounts, store.savedAccounts);
      |r| == |loaded| && forall i :: 0 <= i < |r| ==> r[i].id == loaded[i].id && r[i].role == loaded[i].role
  {
    var loaded := LoadAccounts(store.accounts, store.savedAccounts);
    seq(|loaded|, i requires 0 <= i < |loaded| => ToProfile(loaded[i]))
  }
}

=== FILE: auth_page.dfy ===
/**
 * The sign-in page: the checks run on the login and registration forms
 * before the session's `login` / `register` are called, the message each
 * failed check shows, and where a successful attempt goes.
 */
module AuthPage {
  import opened Wrappers
  import Auth

  const MsgIncomplete := "Vui lòng điền đầy đủ thông tin!"
  const MsgBadCredentials := "Email hoặc mật khẩu không đúng!"
  const MsgMismatch := "Mật khẩu xác nhận không khớp!"
  const MsgTooShort := "Mật khẩu phải có ít nhất 6 ký tự!"
  const MsgEmailTaken := "Email đã tồn tại!"

  const MinPasswordLength := 6

  datatype LoginForm = LoginForm(email: string, password: string)

  datatype RegisterForm = RegisterForm(name: string, email: string, password: string, confirmPassword: string)

  /**
   * The page after a submission: the error shown ("" for none), where the
   * visitor is sent, whether the session operation was called, and the
   * session and store afterwards.
   */
  datatype PageResult = PageResult(error: string, route: Option<string>, called: bool, auth: Auth.AuthState, store: Auth.Store)

  /** Handling the login form against the mock store. */
  function SubmitLogin(form: LoginForm, auth: Auth.AuthState, store: Auth.Store): (r: PageResult)
    ensures form.email == "" || form.password == "" ==>
      r == PageResult(MsgIncomplete, None, false, auth, store)
    ensures form.email != "" && form.password != "" ==> r.called
  {
    if form.email == "" || form.password == "" then
      PageResult(MsgIncomplete, None, false, auth, store)
    else
      var out := Auth.Login(auth, store, form.email, form.password);
      if out.result.success then
        PageResult("", Some(if out.result.isAdmin then "/admin" else "/"), true, out.auth, out.store)
      else
        PageResult(MsgBadCredentials, None, true, out.auth, out.store)
  }

  /**
   * A successful login goes to the admin panel exactly when the account is
   * an administrator, and to the home page otherwise; a failed one stays
   * with the credentials message.
   */
  lemma LoginRouting(form: LoginForm, auth: Auth.AuthState, store: Auth.Store)
    requires form.email != "" && form.password != ""
    ensures
      var out := Auth.Login(auth, store, form.email, form.password);
      var r := SubmitLogin(form, auth, store);
      && (r.route == Some("/admin") <==> out.result.success && out.result.isAdmin)
      && (r.route == Some("/") <==> out.result.success && !out.result.isAdmin)
      && (r.error == MsgBadCredentials <==> !out.result.success)
      && (r.route == Some("/admin") <==> r.auth.isAdmin)
  {
  }

  /** The first failing registration check, in the page's order. */
  function RegisterCheck(form: RegisterForm): (msg: Option<string>)
    ensures msg.None? ==>
      && form.name != "" && form.email != "" && form.password == form.confirmPassword
      && |form.password| >= MinPasswordLength
    ensures msg.Some? ==> msg.value in {MsgIncomplete, MsgMismatch, MsgTooShort}
  {
    if form.name == "" || form.email == "" || form.password == "" || form.confirmPassword == "" then Some(MsgIncomplete)
    else if form.password != form.confirmPassword then Some(MsgMismatch)
    else if |form.password| < MinPasswordLength then Some(MsgTooShort)
    else None
  }

  /**
   * The checks run in order and the first failure decides the message:
   * missing fields, then confirmation mismatch, then length.
   */
  lemma RegisterCheckOrder(form: RegisterForm)
    ensures RegisterCheck(form) == Some(MsgIncomplete) <==>
      form.name == "" || form.email == "" || form.password == "" || form.confirmPassword == ""
    ensures RegisterCheck(form) == Some(MsgMismatch) <==>
      form.name != "" && form.email != "" && form.password != "" && form.confirmPassword != ""
      && form.password != form.confirmPassword
    ensures RegisterCheck(form) == Some(MsgTooShort) <==>
      form.name != "" && form.email != "" && form.confirmPassword != ""
      && form.password == form.confirmPassword && 0 < |form.password| < MinPasswordLength
    ensures RegisterCheck(form).None? <==>
      form.name != "" && form.email != "" && form.password == form.confirmPassword
      && |form.password| >= MinPasswordLength
  {
  }

  /** Handling the registration form against the mock store; the new account's id and date come from the clock. */
  function SubmitRegister(form: RegisterForm, auth: Auth.AuthState, store: Auth.Store,
                          newId: string, today: string): (r: PageResult)
    ensures RegisterCheck(form).Some? ==>
      r == PageResult(RegisterCheck(form).value, None, false, auth, store)
    ensures RegisterCheck(form).None? ==> r.called
  {
    match RegisterCheck(form)
    case Some(msg) => PageResult(msg, None, false, auth, store)
    case None =>
      var out := Auth.Register(auth, store, form.name, form.email, form.password, newId, today);
      if out.ok then PageResult("", Some("/"), true, out.auth, out.store)
      else PageResult(MsgEmailTaken, None, true, out.auth, out.store)
  }

  /**
   * `register` is called only when every check passes; a refused
   * registration shows the "email exists" message and a successful one
   * goes home, signed in as an ordinary user.
   */
  lemma RegisterResultRouting(form: RegisterForm, auth: Auth.AuthState, store: Auth.Store, newId: string, today: string)
    ensures
      var r := SubmitRegister(form, auth, store, newId, today);
      && (r.called <==> RegisterCheck(form).None?)
      && (r.called ==>
            var out := Auth.Register(auth, store, form.name, form.email, form.password, newId, today);
            && (r.error == MsgEmailTaken <==> !out.ok)
            && (r.route == Some("/") <==> out.ok)
            && !r.auth.isAdmin)
  {
  }
}

=== FILE: cart.dfy ===
/**
 * The shopping cart: an ordered list of line items with derived totals,
 * driven by a reducer over five actions (add, remove, set quantity, clear,
 * load). Totals are recomputed from the items after every mutating action;
 * a loaded cart is taken verbatim.
 */
module Cart {
  import opened Decimal
  import Seqs

  /** The product fields an "add to cart" carries (a cart item without its quantity). */
  datatype ItemInfo = ItemInfo(id: int, name: string, price: string, image: string, wineType: string)

  datatype CartItem = CartItem(id: int, name: string, price: string, image: string, quantity: int, wineType: string)

  datatype CartState = CartState(items: seq<CartItem>, total: int, itemCount: int)

  datatype CartAction =
    | AddItem(info: ItemInfo)
    | RemoveItem(id: int)
    | UpdateQuantity(id: int, quantity: int)
    | ClearCart
    | LoadCart(state: CartState)

  const EmptyCart := CartState([], 0, 0)

  // ---------------------------------------------------------------------------
  // Totals

  predicate PricesValid(items: seq<CartItem>) {
    forall i :: 0 <= i < |items| ==> ValidPrice(items[i].price)
  }

  /** What one line costs: the parsed unit price times the quantity. */
  function LineAmount(item: CartItem): int
    requires ValidPrice(item.price)
  {
    ParsePrice(item.price) * item.quantity
  }

  /** Reference sum of the line amounts, folded left to right like the cart provider's `reduce`. */
  function Total(items: seq<CartItem>): int
    requires PricesValid(items)
  {
    if |items| == 0 then 0 else Total(items[..|items| - 1]) + LineAmount(items[|items| - 1])
  }

  /** Reference sum of the quantities. */
  function ItemCount(items: seq<CartItem>): int {
    if |items| == 0 then 0 else ItemCount(items[..|items| - 1]) + items[|items| - 1].quantity
  }

  /** The totals agree with the items. */
  predicate Consistent(s: CartState)
    requires PricesValid(s.items)
  {
    s.total == Total(s.items) && s.itemCount == ItemCount(s.items)
  }

  /** The state with both totals recomputed from its items. */
  function WithTotals(s: CartState): (r: CartState)
    requires PricesValid(s.items)
    ensures r.items == s.items && Consistent(r)
    ensures Consistent(s) ==> r == s
  {
    s.(total := Total(s.items), itemCount := ItemCount(s.items))
  }

  /**
   * The cart provider's two reductions, as one pass over the items: the
   * totals it returns are the reference sums.
   */
  method CalculateTotals(s: CartState) returns (r: CartState)
    requires PricesValid(s.items)
    ensures r.items == s.items
    ensures r.total == Total(s.items) && r.itemCount == ItemCount(s.items)
  {
    var total := 0;
    var count := 0;
    var i := 0;
    while i < |s.items|
      invariant 0 <= i <= |s.items|
      invariant total == Total(s.items[..i])
      invariant count == ItemCount(s.items[..i])
    {
      assert s.items[..i + 1][..i] == s.items[..i];
      total := total + ParsePrice(s.items[i].price) * s.items[i].quantity;
      count := count + s.items[i].quantity;
      i := i + 1;
    }
    assert s.items[..i] == s.items;
    r := s.(total := total, itemCount := count);
  }

  // ---------------------------------------------------------------------------
  // Item-list operations

  predicate HasId(items: seq<CartItem>, id: int) {
    exists i :: 0 <= i < |items| && items[i].id == id
  }

  predicate UniqueIds(items: seq<CartItem>) {
    forall i, j :: 0 <= i < j < |items| ==> items[i].id != items[j].id
  }

  predicate PositiveQuantities(items: seq<CartItem>) {
    forall i :: 0 <= i < |items| ==> items[i].quantity > 0
  }

  /** The invariant a well-behaved cart keeps. */
  predicate WellFormed(s: CartState) {
    && PricesValid(s.items)
    && UniqueIds(s.items)
    && PositiveQuantities(s.items)
    && Consistent(s)
  }

  function NewItem(info: ItemInfo): CartItem {
    CartItem(info.id, info.name, info.price, info.image, 1, info.wineType)
  }

  /** Every item with this id gets one more unit; nothing else changes. */
  function Increment(items: seq<CartItem>, id: int): (r: seq<CartItem>)
    ensures |r| == |items|
    ensures forall i :: 0 <= i < |items| && items[i].id == id ==> r[i] == items[i].(quantity := items[i].quantity + 1)
    ensures forall i :: 0 <= i < |items| && items[i].id != id ==> r[i] == items[i]
  {
    if |items| == 0 then []
    else
      var rest := Increment(items[..|items| - 1], id);
      var last := items[|items| - 1];
      rest + [if last.id == id then last.(quantity := last.quantity + 1) else last]
  }

  /** Every item with this id gets the given quantity; nothing else changes. */
  function SetQuantity(items: seq<CartItem>, id: int, quantity: int): (r: seq<CartItem>)
    ensures |r| == |items|
    ensures forall i :: 0 <= i < |items| && items[i].id == id ==> r[i] == items[i].(quantity := quantity)
    ensures forall i :: 0 <= i < |items| && items[i].id != id ==> r[i] == items[i]
  {
    if |items| == 0 then []
    else
      var rest := SetQuantity(items[..|items| - 1], id, quantity);
      var last := items[|items| - 1];
      rest + [if last.id == id then last.(quantity := quantity) else last]
  }

  /** The items whose id differs from `id`, in their original order. */
  function Without(items: seq<CartItem>, id: int): (r: seq<CartItem>)
    ensures !HasId(r, id)
  {
    Seqs.Filter(items, (item: CartItem) => item.id != id)
  }

  /** Which actions the model can evaluate: every price it must parse is a valid price string. */
  predicate Applicable(s: CartState, action: CartAction) {
    match action
    case AddItem(info) => PricesValid(s.items) && ValidPrice(info.price)
    case RemoveItem(_) => PricesValid(s.items)
    case UpdateQuantity(_, _) => PricesValid(s.items)
    case ClearCart => true
    case LoadCart(_) => true
  }

  /** The cart reducer. */
  function Reduce(s: CartState, action: CartAction): (r: CartState)
    requires Applicable(s, action)
    ensures action.ClearCart? ==> r == EmptyCart
    ensures action.LoadCart? ==> r == action.state
    ensures !action.ClearCart? && !action.LoadCart? ==> PricesValid(r.items) && Consistent(r)
  {
    match action
    case AddItem(info) =>
      if HasId(s.items, info.id) then
        WithTotals(s.(items := Increment(s.items, info.id)))
      else
        WithTotals(s.(items := s.items + [NewItem(info)]))
    case RemoveItem(id) =>
      WithTotals(s.(items := Without(s.items, id)))
    case UpdateQuantity(id, quantity) =>
      if quantity <= 0 then
        WithTotals(s.(items := Without(s.items, id)))
      else
        WithTotals(s.(items := SetQuantity(s.items, id, quantity)))
    case ClearCart => EmptyCart
    case LoadCart(state) => state
  }

  // ---------------------------------------------------------------------------
  // Sums over edited item lists

  lemma TotalAppend(items: seq<CartItem>, x: CartItem)
    requires PricesValid(items) && ValidPrice(x.price)
    ensures PricesValid(items + [x])
    ensures Total(items + [x]) == Total(items) + LineAmount(x)
    ensures ItemCount(items + [x]) == ItemCount(items) + x.quantity
  {
    assert (items + [x])[..|items|] == items;
  }

  /** Replacing one line changes each sum by exactly the difference of that line. */
  lemma {:induction false} TotalUpdateAt(items: seq<CartItem>, k: int, x: CartItem)
    requires PricesValid(items) && ValidPrice(x.price) && 0 <= k < |items|
    ensures PricesValid(items[k := x])
    ensures Total(items[k := x]) == Total(items) - LineAmount(items[k]) + LineAmount(x)
    ensures ItemCount(items[k := x]) == ItemCount(items) - items[k].quantity + x.quantity
  {
    var n := |items|;
    var u := items[k := x];
    assert u[..n - 1] == if k == n - 1 then items[..n - 1] else items[..n - 1][k := x];
    if k < n - 1 {
      TotalUpdateAt(items[..n - 1], k, x);
    }
  }

  // ---------------------------------------------------------------------------
  // ADD_ITEM

  /**
   * Adding a product already in the cart adds one unit to that line only:
   * the length, the order and every other line are unchanged, and each
   * total grows by exactly that line's unit (its stored price, not the
   * price carried by the action).
   */
  lemma AddExistingItem(s: CartState, info: ItemInfo, k: int)
    requires PricesValid(s.items) && ValidPrice(info.price) && UniqueIds(s.items)
    requires 0 <= k < |s.items| && s.items[k].id == info.id
    ensures Reduce(s, AddItem(info)).items == s.items[k := s.items[k].(quantity := s.items[k].quantity + 1)]
    ensures Reduce(s, AddItem(info)).total == Total(s.items) + ParsePrice(s.items[k].price)
    ensures Reduce(s, AddItem(info)).itemCount == ItemCount(s.items) + 1
  {
    var x := s.items[k].(quantity := s.items[k].quantity + 1);
    assert HasId(s.items, info.id);
    IncrementAtUniqueId(s.items, k);
    var u := s.items[k := x];
    assert Increment(s.items, info.id) == u;
    TotalUpdateAt(s.items, k, x);
    OneMoreUnit(s.items[k]);
    assert Total(u) == Total(s.items) + ParsePrice(s.items[k].price);
    assert Reduce(s, AddItem(info)) == WithTotals(s.(items := u));
  }

  lemma OneMoreUnit(item: CartItem)
    requires ValidPrice(item.price)
    ensures LineAmount(item.(quantity := item.quantity + 1)) == LineAmount(item) + ParsePrice(item.price)
  {
    var p := ParsePrice(item.price);
    assert p * (item.quantity + 1) == p * item.quantity + p;
  }

  lemma IncrementAtUniqueId(items: seq<CartItem>, k: int)
    requires UniqueIds(items) && 0 <= k < |items|
    ensures Increment(items, items[k].id) == items[k := items[k].(quantity := items[k].quantity + 1)]
  {
    var bumped := items[k := items[k].(quantity := items[k].quantity + 1)];
    var inc := Increment(items, items[k].id);
    forall i | 0 <= i < |items| ensures inc[i] == bumped[i] {
      if i != k {
        assert items[i].id != items[k].id;
      }
    }
  }

  /** Adding a product not yet in the cart appends one line with quantity 1 at the end. */
  lemma AddNewItem(s: CartState, info: ItemInfo)
    requires PricesValid(s.items) && ValidPrice(info.price) && !HasId(s.items, info.id)
    ensures Reduce(s, AddItem(info)).items == s.items + [NewItem(info)]
    ensures Reduce(s, AddItem(info)).total == Total(s.items) + ParsePrice(info.price)
    ensures Reduce(s, AddItem(info)).itemCount == ItemCount(s.items) + 1
  {
    TotalAppend(s.items, NewItem(info));
  }

  /** Two adds of the same new product give one line of quantity 2, not two lines. */
  lemma AddTwiceIsOneLine(s: CartState, info: ItemInfo)
    requires PricesValid(s.items) && ValidPrice(info.price) && UniqueIds(s.items) && !HasId(s.items, info.id)
    ensures
      var once := Reduce(s, AddItem(info));
      Reduce(once, AddItem(info)).items == s.items + [NewItem(info).(quantity := 2)]
  {
    var once := Reduce(s, AddItem(info));
    AddNewItem(s, info);
    assert UniqueIds(once.items);
    AddExistingItem(once, info, |s.items|);
  }

  // ---------------------------------------------------------------------------
  // REMOVE_ITEM and UPDATE_QUANTITY

  /**
   * Removal deletes every line with the id and keeps the other lines in
   * their relative order; an id not in the cart leaves the items as they are.
   */
  lemma RemoveItemKeepsOthers(s: CartState, id: int)
    requires PricesValid(s.items)
    ensures !HasId(Reduce(s, RemoveItem(id)).items, id)
    ensures Seqs.IsSubsequence(Reduce(s, RemoveItem(id)).items, s.items)
    ensures forall i :: 0 <= i < |s.items| && s.items[i].id != id ==> s.items[i] in Reduce(s, RemoveItem(id)).items
    ensures !HasId(s.items, id) ==> Reduce(s, RemoveItem(id)).items == s.items
  {
    var keep := (item: CartItem) => item.id != id;

    if !HasId(s.items, id) {
      Seqs.FilterKeepsAll(s.items, keep);
    }
  }

  /** A quantity of zero or less means "remove the line". */
  lemma UpdateToNonPositiveRemoves(s: CartState, id: int, quantity: int)
    requires PricesValid(s.items) && quantity <= 0
    ensures Reduce(s, UpdateQuantity(id, quantity)) == Reduce(s, RemoveItem(id))
  {
  }

  /**
   * A positive quantity is set (not added) on that line; other lines are
   * untouched, and an id not in the cart leaves the items as they are.
   */
  lemma UpdateToPositiveSets(s: CartState, id: int, quantity: int)
    requires PricesValid(s.items) && quantity > 0 && UniqueIds(s.items)
    ensures forall k :: 0 <= k < |s.items| && s.items[k].id == id ==>
      Reduce(s, UpdateQuantity(id, quantity)).items == s.items[k := s.items[k].(quantity := quantity)]
    ensures !HasId(s.items, id) ==> Reduce(s, UpdateQuantity(id, quantity)).items == s.items
  {
    forall k | 0 <= k < |s.items| && s.items[k].id == id
      ensures SetQuantity(s.items, id, quantity) == s.items[k := s.items[k].(quantity := quantity)]
    {
    }
    if !HasId(s.items, id) {
      assert SetQuantity(s.items, id, quantity) == s.items;
    }
  }

  // ---------------------------------------------------------------------------
  // Invariants

  lemma WithoutPreserves(items: seq<CartItem>, id: int)
    requires PricesValid(items) && UniqueIds(items) && PositiveQuantities(items)
    ensures PricesValid(Without(items, id)) && UniqueIds(Without(items, id)) && PositiveQuantities(Without(items, id))
  {
    var r := Without(items, id);
    forall i | 0 <= i < |r| ensures ValidPrice(r[i].price) && r[i].quantity > 0 {
      var m :| 0 <= m < |items| && items[m] == r[i];
    }
    WithoutKeepsIdsUnique(items, id);
  }

  lemma WithoutKeepsIdsUnique(items: seq<CartItem>, id: int)
    requires UniqueIds(items)
    ensures UniqueIds(Without(items, id))
  {
    var key := (i: CartItem) => i.id;
    Seqs.FilterKeepsKeysDistinct(items, (i: CartItem) => i.id != id, key);
    assert Seqs.KeysDistinct(Without(items, id), key);
  }

  /** What an action must carry for the invariant to survive it. */
  predicate Admissible(action: CartAction) {
    match action
    case AddItem(info) => ValidPrice(info.price)
    case LoadCart(state) => WellFormed(state)
    case _ => true
  }

  /**
   * Unique ids, positive quantities, parseable prices and totals that match
   * the items survive every action (a loaded cart must bring them along).
   */
  lemma ReducePreservesWellFormed(s: CartState, action: CartAction)
    requires WellFormed(s) && Admissible(action)
    ensures Applicable(s, action)
    ensures WellFormed(Reduce(s, action))
  {
    match action
    case AddItem(info) =>
      if HasId(s.items, info.id) {
        IncrementPreserves(s.items, info.id);
      } else {
        AppendPreserves(s.items, NewItem(info));
      }
    case RemoveItem(id) =>
      WithoutPreserves(s.items, id);
    case UpdateQuantity(id, quantity) =>
      if quantity <= 0 {
        WithoutPreserves(s.items, id);
      } else {
        SetQuantityPreserves(s.items, id, quantity);
      }
    case ClearCart =>
    case LoadCart(_) =>
  }

  lemma IncrementPreserves(items: seq<CartItem>, id: int)
    requires PricesValid(items) && UniqueIds(items) && PositiveQuantities(items)
    ensures
      var r := Increment(items, id);
      PricesValid(r) && UniqueIds(r) && PositiveQuantities(r)
  {
    var r := Increment(items, id);
    assert forall i :: 0 <= i < |r| ==> r[i].id == items[i].id && r[i].price == items[i].price;
  }

  lemma SetQuantityPreserves(items: seq<CartItem>, id: int, quantity: int)
    requires PricesValid(items) && UniqueIds(items) && PositiveQuantities(items) && quantity > 0
    ensures
      var r := SetQuantity(items, id, quantity);
      PricesValid(r) && UniqueIds(r) && PositiveQuantities(r)
  {
    var r := SetQuantity(items, id, quantity);
    assert forall i :: 0 <= i < |r| ==> r[i].id == items[i].id && r[i].price == items[i].price;
  }

  lemma AppendPreserves(items: seq<CartItem>, x: CartItem)
    requires PricesValid(items) && UniqueIds(items) && PositiveQuantities(items)
    requires ValidPrice(x.price) && x.quantity > 0 && !HasId(items, x.id)
    ensures
      var r := items + [x];
      PricesValid(r) && UniqueIds(r) && PositiveQuantities(r)
      && Total(r) == Total(items) + LineAmount(x) && ItemCount(r) == ItemCount(items) + x.quantity
  {
    TotalAppend(items, x);
  }

  /** The cart after a run of actions from `s`. */
  function ReduceAll(s: CartState, actions: seq<CartAction>): (r: CartState)
    requires WellFormed(s)
    requires forall i :: 0 <= i < |actions| ==> Admissible(actions[i])
    ensures WellFormed(r)
    decreases |actions|
  {
    if |actions| == 0 then s
    else
      ReducePreservesWellFormed(s, actions[0]);
      ReduceAll(Reduce(s, actions[0]), actions[1..])
  }

  /**
   * From the empty cart, every run of actions ends in a cart whose total is
   * the sum of parsed price times quantity and whose item count is the sum
   * of quantities, with unique ids and positive quantities.
   */
  lemma ReachableCartsAreWellFormed(actions: seq<CartAction>)
    requires forall i :: 0 <= i < |actions| ==> Admissible(actions[i])
    ensures WellFormed(EmptyCart)
    ensures
      var r := ReduceAll(EmptyCart, actions);
      r.total == Total(r.items) && r.itemCount == ItemCount(r.items) && UniqueIds(r.items)
      && PositiveQuantities(r.items)
  {
  }

  /**
   * A loaded cart is not re-totalled: a stored state whose total disagrees
   * with its items comes back with the stale total.
   */
  lemma LoadCartKeepsStaleTotals()
    ensures
      var stale := CartState([CartItem(1, "Rượu Mơ", "55,000", "", 2, "Rượu Mơ")], 0, 0);
      PricesValid(stale.items) && !Consistent(Reduce(EmptyCart, LoadCart(stale)))
  {
    var item := CartItem(1, "Rượu Mơ", "55,000", "", 2, "Rượu Mơ");
    Price55000();
    assert Total([item]) == 110000 by {
      assert [item][..0] == [];
    }
  }
}

=== FILE: catalog.dfy ===
/**
 * The product catalog held in memory: add with a fresh id, patch, delete and
 * look up by id, over an ordered list of products.
 */
module Catalog {
  import opened Wrappers
  import Seqs

  datatype Details = Details(
    alcohol: string, ingredient: string, aging: string, serving: string, pairing: string, volume: string)

  datatype Product = Product(
    id: int, name: string, wineType: string, category: string, packaging: string, volume: string,
    price: string, originalPrice: Option<string>, discount: Option<real>, rating: real,
    image: string, description: string, details: Details, story: string)

  /**
   * A partial product: each present field overwrites the product's (the
   * provider's `{ ...product, ...productData }` spreads the patch over the
   * product, so even the id may change;
   * `details` is replaced as a whole).
   */
  datatype ProductPatch = ProductPatch(
    id: Option<int>, name: Option<string>, wineType: Option<string>, category: Option<string>,
    packaging: Option<string>, volume: Option<string>, price: Option<string>,
    originalPrice: Option<Option<string>>, discount: Option<Option<real>>, rating: Option<real>,
    image: Option<string>, description: Option<string>, details: Option<Details>, story: Option<string>)

  predicate UniqueIds(products: seq<Product>) {
    forall i, j :: 0 <= i < j < |products| ==> products[i].id != products[j].id
  }

  /** max(ids, 0) + 1: one more than the largest id, and 1 for an empty or non-positive catalog. */
  function NextId(products: seq<Product>): (id: int)
    ensures id >= 1
    ensures forall i :: 0 <= i < |products| ==> products[i].id < id
    ensures (forall i :: 0 <= i < |products| ==> products[i].id <= 0) ==> id == 1
    ensures id > 1 ==> exists i :: 0 <= i < |products| && products[i].id == id - 1
  {
    if |products| == 0 then 1
    else
      var rest := NextId(products[1..]);
      if products[0].id + 1 > rest then products[0].id + 1 else rest
  }

  /**
   * Adds a product (whatever id the draft carries is replaced) at the front
   * of the list.
   */
  function AddProduct(products: seq<Product>, draft: Product): (r: seq<Product>)
    ensures |r| == |products| + 1 && r[1..] == products
    ensures r[0] == draft.(id := NextId(products))
    ensures forall i :: 0 <= i < |products| ==> products[i].id != r[0].id
    ensures |products| == 0 ==> r[0].id == 1
  {
    [draft.(id := NextId(products))] + products
  }

  /** The patch that carries no field. */
  const EmptyPatch := ProductPatch(None, None, None, None, None, None, None, None, None, None, None, None, None, None)

  /**
   * The product with the patch spread over it: a present field replaces the
   * product's value, an absent one keeps it. Without an id in the patch the
   * product keeps its id, and the empty patch changes nothing.
   */
  function ApplyPatch(p: Product, patch: ProductPatch): (q: Product)
    ensures patch.id.None? ==> q.id == p.id
    ensures patch.id.Some? ==> q.id == patch.id.value
    ensures patch == EmptyPatch ==> q == p
  {
    Product(
      patch.id.GetOr(p.id), patch.name.GetOr(p.name), patch.wineType.GetOr(p.wineType),
      patch.category.GetOr(p.category), patch.packaging.GetOr(p.packaging), patch.volume.GetOr(p.volume),
      patch.price.GetOr(p.price), patch.originalPrice.GetOr(p.originalPrice), patch.discount.GetOr(p.discount),
      patch.rating.GetOr(p.rating), patch.image.GetOr(p.image), patch.description.GetOr(p.description),
      patch.details.GetOr(p.details), patch.story.GetOr(p.story))
  }

  /** Patches every product with this id; every other product is left as it was. */
  function UpdateProduct(products: seq<Product>, id: int, patch: ProductPatch): (r: seq<Product>)
    ensures |r| == |products|
    ensures forall i :: 0 <= i < |products| && products[i].id == id ==> r[i] == ApplyPatch(products[i], patch)
    ensures forall i :: 0 <= i < |products| && products[i].id != id ==> r[i] == products[i]
  {
    if |products| == 0 then []
    else
      var head := if products[0].id == id then ApplyPatch(products[0], patch) else products[0];
      var rest := UpdateProduct(products[1..], id, patch);
      assert forall i :: 1 <= i < |products| ==> products[i] == products[1..][i - 1];
      [head] + rest
  }

  /** The products whose id differs from `id`, in their original order. */
  function DeleteProduct(products: seq<Product>, id: int): (r: seq<Product>)
    ensures |r| <= |products|
    ensures forall i :: 0 <= i < |r| ==> r[i].id != id && r[i] in products
    ensures forall i :: 0 <= i < |products| && products[i].id != id ==> products[i] in r
  {
    Seqs.Filter(products, (p: Product) => p.id != id)
  }

  /** The first product with this id, if any. */
  function GetProductById(products: seq<Product>, id: int): (r: Option<Product>)
    ensures r.Some? <==> exists i :: 0 <= i < |products| && products[i].id == id
    ensures r.Some? ==> r.value.id == id && r.value in products
    ensures forall i :: (0 <= i < |products| && products[i].id == id
                         && forall j :: 0 <= j < i ==> products[j].id != id) ==> r == Some(products[i])
  {
    var k := Seqs.FindIndex(products, (p: Product) => p.id == id);
    if k >= 0 then Some(products[k]) else None
  }

  // ---------------------------------------------------------------------------
  // Properties

  /** Adding keeps ids unique, and the new product is found under its new id. */
  lemma AddProductFresh(products: seq<Product>, draft: Product)
    requires UniqueIds(products)
    ensures UniqueIds(AddProduct(products, draft))
    ensures GetProductById(AddProduct(products, draft), NextId(products)) == Some(draft.(id := NextId(products)))
  {
    var r := AddProduct(products, draft);
    forall i, j | 0 <= i < j < |r| ensures r[i].id != r[j].id {
      assert r[j] == products[j - 1];
      if i > 0 {
        assert r[i] == products[i - 1];
      }
    }
    GetFindsHead(r, NextId(products));
  }

  /** Lookup stops at the first product. */
  lemma GetFindsHead(products: seq<Product>, id: int)
    requires |products| > 0 && products[0].id == id
    ensures GetProductById(products, id) == Some(products[0])
  {
  }

  /** A product deleted by id can no longer be found. */
  lemma DeleteThenGet(products: seq<Product>, id: int)
    ensures GetProductById(DeleteProduct(products, id), id).None?
  {
  }

  /** Deleting keeps the survivors in their order; deleting an absent id changes nothing. */
  lemma DeleteKeepsOrder(products: seq<Product>, id: int)
    ensures Seqs.IsSubsequence(DeleteProduct(products, id), products)
    ensures (forall i :: 0 <= i < |products| ==> products[i].id != id) ==> DeleteProduct(products, id) == products
  {
    var keep := (p: Product) => p.id != id;

    if forall i :: 0 <= i < |products| ==> products[i].id != id {
      Seqs.FilterKeepsAll(products, keep);
    }
  }

  /** Deleting keeps ids unique. */
  lemma DeletePreservesUniqueIds(products: seq<Product>, id: int)
    requires UniqueIds(products)
    ensures UniqueIds(DeleteProduct(products, id))
  {
    var key := (p: Product) => p.id;
    Seqs.FilterKeepsKeysDistinct(products, (p: Product) => p.id != id, key);
    assert Seqs.KeysDistinct(DeleteProduct(products, id), key);
  }

  /** Spreading the same patch twice is the same as spreading it once. */
  lemma ApplyPatchIdempotent(p: Product, patch: ProductPatch)
    ensures ApplyPatch(ApplyPatch(p, patch), patch) == ApplyPatch(p, patch)
  {
  }

  /** A patch without an id keeps ids unique. */
  lemma UpdatePreservesUniqueIds(products: seq<Product>, id: int, patch: ProductPatch)
    requires UniqueIds(products) && patch.id.None?
    ensures UniqueIds(UpdateProduct(products, id, patch))
  {
    var r := UpdateProduct(products, id, patch);
    forall i, j | 0 <= i < j < |r| ensures r[i].id != r[j].id {
      assert r[i].id == products[i].id && r[j].id == products[j].id;
    }
  }

  /**
   * A patch that carries a fresh id moves the product: the old id is no
   * longer found and the product is found under the new one.
   */
  lemma UpdateMovesId(products: seq<Product>, k: int, patch: ProductPatch)
    requires UniqueIds(products) && 0 <= k < |products|
    requires patch.id.Some? && forall i :: 0 <= i < |products| ==> products[i].id != patch.id.value
    ensures GetProductById(UpdateProduct(products, products[k].id, patch), products[k].id).None?
    ensures GetProductById(UpdateProduct(products, products[k].id, patch), patch.id.value)
         == Some(ApplyPatch(products[k], patch))
  {
    var id := products[k].id;
    var r := UpdateProduct(products, id, patch);
    forall i | 0 <= i < |r| ensures r[i].id != id {
      if i != k {
        assert products[i].id != id;
      }
    }
    forall i | 0 <= i < |r| && i != k ensures r[i].id != patch.id.value {
      assert r[i] == products[i];
    }
  }

  /** After an update without an id, lookup by the id finds the patched product. */
  lemma UpdateThenGet(products: seq<Product>, id: int, patch: ProductPatch)
    requires patch.id.None?
    ensures GetProductById(UpdateProduct(products, id, patch), id)
         == if GetProductById(products, id).Some? then Some(ApplyPatch(GetProductById(products, id).value, patch)) else None
  {
    var r := UpdateProduct(products, id, patch);
    var k := Seqs.FindIndex(products, (p: Product) => p.id == id);
    if k >= 0 {
      forall j | 0 <= j < k ensures r[j].id != id {
        assert r[j] == products[j];
      }
    } else {
      forall i | 0 <= i < |r| ensures r[i].id != id {
        assert r[i] == products[i];
      }
    }
  }

  /** An update for an id not in the catalog changes nothing. */
  lemma UpdateUnknownIdIsNoOp(products: seq<Product>, id: int, patch: ProductPatch)
    requires forall i :: 0 <= i < |products| ==> products[i].id != id
    ensures UpdateProduct(products, id, patch) == products
  {
  }

  /** The empty patch changes no product. */
  lemma EmptyPatchIsIdentity(products: seq<Product>, id: int)
    ensures UpdateProduct(products, id, EmptyPatch) == products
  {
    var r := UpdateProduct(products, id, EmptyPatch);
    forall i | 0 <= i < |products| ensures r[i] == products[i] {
    }
  }
}

=== FILE: checkout.dfy ===
/**
 * Checkout: from the cart, the signed-in user and the shipping form to the
 * order sent for saving, with the cart cleared only once the save reports
 * success. The save itself is an outcome supplied by the caller; the
 * creation time and the id of the device backup copy come from the clock
 * and are supplied too.
 */
module Checkout {
  import opened Wrappers
  import opened Decimal
  import opened Orders
  import Cart

  const ShippingFee := 30000

  /**
   * What the save helper reports. It catches every error of its own (a
   * failed request, an unreadable answer) and reports it as a refusal, so
   * the save itself never throws.
   */
  datatype SaveResult = Saved | Refused

  datatype OrderPayload = OrderPayload(
    userId: Option<string>, items: seq<Cart.CartItem>, customerInfo: CustomerInfo,
    total: int, status: string, createdAt: int)

  datatype Outcome = Incomplete | Placed | Failed

  /**
   * The result of one submission: the payload handed to the save (None when
   * no save was attempted), the cart and device order list afterwards, which
   * message the visitor sees, and whether the save reported success (the
   * orders endpoint answers success only after storing the order and its
   * items).
   */
  datatype Submission = Submission(
    attempted: Option<OrderPayload>, cart: Cart.CartState, savedOrders: seq<Order>, outcome: Outcome,
    saveReported: bool)

  /** The line amount the order summary shows, computed by the page's own price parser. */
  function ItemAmount(item: Cart.CartItem): int
    requires ValidPrice(item.price)
  {
    ParsePrice(item.price) * item.quantity
  }

  /** The summary's line amounts, read top to bottom and added up. */
  function SummaryTotal(items: seq<Cart.CartItem>): int
    requires Cart.PricesValid(items)
  {
    if |items| == 0 then 0
    else
      assert Cart.PricesValid(items[1..]) by {
        forall i | 0 <= i < |items| - 1 ensures ValidPrice(items[1..][i].price) {
          assert items[1..][i] == items[i + 1];
        }
      }
      ItemAmount(items[0]) + SummaryTotal(items[1..])
  }

  /** The amount charged: the cart's stored total plus the flat shipping fee. */
  function OrderTotal(cart: Cart.CartState): int {
    cart.total + ShippingFee
  }

  /** Name, email, phone and address are required; notes are optional. */
  predicate FormComplete(form: CustomerInfo) {
    form.name != "" && form.email != "" && form.phone != "" && form.address != ""
  }

  function Payload(cart: Cart.CartState, userId: Option<string>, form: CustomerInfo, now: int): (p: OrderPayload)
    ensures p.status == "pending" && p.items == cart.items && p.customerInfo == form
    ensures p.total == cart.total + ShippingFee && p.userId == userId
  {
    OrderPayload(userId, cart.items, form, OrderTotal(cart), "pending", now)
  }

  /** The order as backed up on the device after a successful save. */
  function Backup(p: OrderPayload, id: string): Order {
    Order(id, p.userId, p.items, p.customerInfo, p.total, p.status, p.createdAt)
  }

  /**
   * One press of "place order". `save` is what the save helper reports;
   * `backupOk` says whether the device backup that follows a successful save
   * (reading, extending and writing the stored order list) completes. A
   * corrupt stored list or a full storage makes it throw, and the page's
   * handler then reports failure although the server already holds the order.
   */
  function Submit(cart: Cart.CartState, userId: Option<string>, form: CustomerInfo, now: int,
                  save: SaveResult, backupOk: bool, backupId: string, savedOrders: seq<Order>): (s: Submission)
    ensures !FormComplete(form) ==> s == Submission(None, cart, savedOrders, Incomplete, false)
    ensures FormComplete(form) ==> s.attempted == Some(Payload(cart, userId, form, now))
    ensures s.saveReported <==> FormComplete(form) && save == Saved
    ensures s.outcome == Placed <==> s.saveReported && backupOk
    ensures s.outcome == Placed ==> s.cart == Cart.EmptyCart
    ensures s.outcome != Placed ==> s.cart == cart && s.savedOrders == savedOrders
  {
    if !FormComplete(form) then
      Submission(None, cart, savedOrders, Incomplete, false)
    else
      var p := Payload(cart, userId, form, now);
      match save
      case Saved =>
        if backupOk then
          Submission(Some(p), Cart.Reduce(cart, Cart.ClearCart), savedOrders + [Backup(p, backupId)], Placed, true)
        else
          Submission(Some(p), cart, savedOrders, Failed, true)
      case Refused => Submission(Some(p), cart, savedOrders, Failed, false)
  }

  /** The form is only shown for a non-empty cart and a signed-in visitor. */
  predicate FormShown(cart: Cart.CartState, authenticated: bool) {
    |cart.items| > 0 && authenticated
  }

  /** A submission from the page: nothing happens when the form is not shown. */
  function PageSubmit(cart: Cart.CartState, authenticated: bool, userId: Option<string>, form: CustomerInfo,
                      now: int, save: SaveResult, backupOk: bool, backupId: string, savedOrders: seq<Order>): (s: Submission)
    ensures !FormShown(cart, authenticated) ==> s.attempted.None? && s.cart == cart && !s.saveReported
    ensures FormShown(cart, authenticated) ==> s == Submit(cart, userId, form, now, save, backupOk, backupId, savedOrders)
  {
    if FormShown(cart, authenticated) then Submit(cart, userId, form, now, save, backupOk, backupId, savedOrders)
    else Submission(None, cart, savedOrders, Incomplete, false)
  }

  // ---------------------------------------------------------------------------
  // Properties

  /**
   * For a cart whose totals match its items, the order total is the sum of
   * the summary's line amounts plus shipping, and a successful submission
   * backs up exactly the submitted order as pending.
   */
  lemma PlacedOrderTotal(cart: Cart.CartState, userId: Option<string>, form: CustomerInfo, now: int,
                         backupId: string, savedOrders: seq<Order>)
    requires Cart.WellFormed(cart) && FormComplete(form)
    ensures
      var s := Submit(cart, userId, form, now, Saved, true, backupId, savedOrders);
      && s.outcome == Placed
      && s.attempted.value.total == SummaryTotal(cart.items) + ShippingFee
      && s.savedOrders == savedOrders + [Backup(s.attempted.value, backupId)]
      && s.savedOrders[|savedOrders|].status == "pending"
      && s.savedOrders[|savedOrders|].items == cart.items
  {
    SummaryMatchesTotal(cart.items);
  }

  /**
   * When the server stores the order but the device backup throws, the page
   * reports failure and keeps the cart, so pressing again sends the same
   * order a second time and the server ends up holding it twice.
   */
  lemma BackupFailureRetryDuplicates(cart: Cart.CartState, userId: Option<string>, form: CustomerInfo,
                                     now: int, later: int, backupId: string, savedOrders: seq<Order>)
    requires FormComplete(form)
    ensures
      var s1 := Submit(cart, userId, form, now, Saved, false, backupId, savedOrders);
      var s2 := Submit(s1.cart, userId, form, later, Saved, true, backupId, s1.savedOrders);
      && s1.saveReported && s1.outcome == Failed && s1.cart == cart && s1.savedOrders == savedOrders
      && s2.saveReported && s2.outcome == Placed
      && s2.attempted.value.items == s1.attempted.value.items
      && s2.attempted.value.total == s1.attempted.value.total
  {
  }

  /**
   * The summary and the cart add the same lines in opposite directions; for
   * valid prices they reach the same sum, so the subtotal shown under the
   * summary is the cart's total.
   */
  lemma {:induction false} SummaryMatchesTotal(items: seq<Cart.CartItem>)
    requires Cart.PricesValid(items)
    ensures SummaryTotal(items) == Cart.Total(items)
  {
    if |items| > 0 {
      var init := items[..|items| - 1];
      var last := items[|items| - 1];
      assert items == init + [last];
      SummaryTotalAppend(init, last);
      SummaryMatchesTotal(init);
    }
  }

  /** Adding a line at the bottom of the summary adds its amount to the sum. */
  lemma {:induction false} SummaryTotalAppend(a: seq<Cart.CartItem>, x: Cart.CartItem)
    requires Cart.PricesValid(a + [x])
    ensures Cart.PricesValid(a) && ValidPrice(x.price)
    ensures SummaryTotal(a + [x]) == SummaryTotal(a) + ItemAmount(x)
  {
    assert forall i :: 0 <= i < |a| ==> (a + [x])[i] == a[i];
    assert (a + [x])[|a|] == x;
    if |a| > 0 {
      assert (a + [x])[1..] == a[1..] + [x];
      SummaryTotalAppend(a[1..], x);
    }
  }

  /**
   * The worked example: a product priced 55000 (the string "55,000", see
   * `Decimal.Price55000`) added twice and another priced 150000 added once
   * give a cart total of 260000 over 3 units, and an order total of 290000.
   */
  lemma WorkedExample(a: Cart.ItemInfo, b: Cart.ItemInfo)
    requires ValidPrice(a.price) && ParsePrice(a.price) == 55000
    requires ValidPrice(b.price) && ParsePrice(b.price) == 150000
    requires a.id != b.id
    ensures
      var c1 := Cart.Reduce(Cart.EmptyCart, Cart.AddItem(a));
      var c2 := Cart.Reduce(c1, Cart.AddItem(a));
      var c3 := Cart.Reduce(c2, Cart.AddItem(b));
      && c2.total == 110000
      && c3.total == 260000 && c3.itemCount == 3
      && OrderTotal(c3) == 290000
  {
    WorkedExampleFirstWine(a);
    var c2 := Cart.Reduce(Cart.Reduce(Cart.EmptyCart, Cart.AddItem(a)), Cart.AddItem(a));
    WorkedExampleSecondWine(c2, b);
  }

  /** The second half of the worked example: a different product priced 150000 joins the one line of two units. */
  lemma WorkedExampleSecondWine(c2: Cart.CartState, b: Cart.ItemInfo)
    requires |c2.items| == 1 && c2.items[0].id != b.id
    requires Cart.PricesValid(c2.items) && Cart.Total(c2.items) == 110000 && Cart.ItemCount(c2.items) == 2
    requires ValidPrice(b.price) && ParsePrice(b.price) == 150000
    ensures
      var c3 := Cart.Reduce(c2, Cart.AddItem(b));
      c3.items == c2.items + [Cart.NewItem(b)] && c3.total == 260000 && c3.itemCount == 3
  {
    assert !Cart.HasId(c2.items, b.id);
    Cart.AddNewItem(c2, b);
  }

  /** The first half of the worked example: a product priced 55000 added twice is one line of two units. */
  lemma WorkedExampleFirstWine(a: Cart.ItemInfo)
    requires ValidPrice(a.price) && ParsePrice(a.price) == 55000
    ensures
      var c2 := Cart.Reduce(Cart.Reduce(Cart.EmptyCart, Cart.AddItem(a)), Cart.AddItem(a));
      && c2.items == [Cart.NewItem(a).(quantity := 2)]
      && Cart.PricesValid(c2.items) && Cart.Total(c2.items) == 110000 && Cart.ItemCount(c2.items) == 2
      && c2.total == 110000 && c2.itemCount == 2
  {
    var one := Cart.NewItem(a);
    var two := one.(quantity := 2);
    assert one.price == a.price && one.quantity == 1 && two.price == a.price;
    assert Cart.LineAmount(one) == 55000 && Cart.LineAmount(two) == 110000;
    var c1 := Cart.Reduce(Cart.EmptyCart, Cart.AddItem(a));
    Cart.AddNewItem(Cart.EmptyCart, a);
    assert c1.items == [one];
    assert Cart.Total(c1.items) == 55000 && Cart.ItemCount(c1.items) == 1;
    var c2 := Cart.Reduce(c1, Cart.AddItem(a));
    Cart.AddExistingItem(c1, a, 0);
    assert c1.items[0].(quantity := c1.items[0].quantity + 1) == two;
    var u := c1.items[0 := two];
    assert |u| == 1 && u[0] == two;
    assert u == [two];
    assert c2.items == [two];
    assert Cart.PricesValid([two]);
    assert Cart.ItemCount([two]) == Cart.ItemCount([]) + 2;
    assert Cart.Total([two]) == Cart.Total([]) + Cart.LineAmount(two);
  }
}

=== FILE: decimal.dfy ===
/**
 * Decimal digit strings. The storefront keeps prices as grouped-digit
 * strings ("165,000") and reads them back by deleting every `.` and `,`
 * and parsing the remaining digits as a base-10 integer; user ids read
 * from the database are rendered back to decimal strings.
 */
module Decimal {

  predicate IsDigit(c: char) {
    '0' <= c <= '9'
  }

  predicate IsSeparator(c: char) {
    c == '.' || c == ','
  }

  predicate AllDigits(s: string) {
    forall i :: 0 <= i < |s| ==> IsDigit(s[i])
  }

  function DigitValue(c: char): (d: nat)
    requires IsDigit(c)
    ensures d < 10
  {
    c as int - '0' as int
  }

  function DigitChar(d: nat): (c: char)
    requires d < 10
    ensures IsDigit(c) && DigitValue(c) == d
  {
    ('0' as int + d) as char
  }

  function Pow10(k: nat): (p: nat)
    ensures p >= 1
  {
    if k == 0 then 1 else 10 * Pow10(k - 1)
  }

  /** Base-10 value of a digit string, most significant digit first; "" reads as 0. */
  function DigitsValue(s: string): nat
    requires AllDigits(s)
  {
    if |s| == 0 then 0 else 10 * DigitsValue(s[..|s| - 1]) + DigitValue(s[|s| - 1])
  }

  /** The string with every thousands separator (`.` or `,`) deleted. */
  function StripSeparators(s: string): (r: string)
    ensures |r| <= |s|
    ensures forall i :: 0 <= i < |r| ==> !IsSeparator(r[i])
    ensures PriceChars(s) ==> AllDigits(r)
  {
    if |s| == 0 then []
    else if IsSeparator(s[0]) then StripSeparators(s[1..])
    else [s[0]] + StripSeparators(s[1..])
  }

  /**
   * A price string the storefront can read: digits and separators only, with
   * at least one digit (so that the integer parse never yields NaN).
   */
  predicate ValidPrice(s: string) {
    PriceChars(s) && HasDigit(s)
  }

  predicate PriceChars(s: string) {
    forall i :: 0 <= i < |s| ==> IsDigit(s[i]) || IsSeparator(s[i])
  }

  predicate HasDigit(s: string) {
    exists i :: 0 <= i < |s| && IsDigit(s[i])
  }

  /** The integer a valid price string stands for. */
  function ParsePrice(s: string): (r: nat)
    requires ValidPrice(s)
    ensures AllDigits(s) ==> r == DigitsValue(s)
  {
    var digits := StripSeparators(s);
    if AllDigits(s) then
      StripDigits(s);
      DigitsValue(digits)
    else
      DigitsValue(digits)
  }

  /** Decimal rendering of a natural number, without leading zeros. */
  function NatToString(n: nat): (r: string)
    ensures |r| >= 1 && AllDigits(r)
    ensures |r| > 1 ==> r[0] != '0'
  {
    if n < 10 then [DigitChar(n)] else NatToString(n / 10) + [DigitChar(n % 10)]
  }

  /** Exactly three digits, zero-padded (one thousands group). */
  function Pad3(k: nat): (r: string)
    requires k < 1000
    ensures |r| == 3 && AllDigits(r)
  {
    [DigitChar(k / 100), DigitChar(k / 10 % 10), DigitChar(k % 10)]
  }

  /** `n` written with thousands groups separated by `sep`, e.g. 165000 as "165,000". */
  function Group(n: nat, sep: char): string
    requires IsSeparator(sep)
  {
    if n < 1000 then NatToString(n) else Group(n / 1000, sep) + [sep] + Pad3(n % 1000)
  }

  // ---------------------------------------------------------------------------
  // Properties

  /** Appending digits shifts the value of the prefix. */
  lemma {:induction false} DigitsValueAppend(a: string, b: string)
    requires AllDigits(a) && AllDigits(b)
    ensures AllDigits(a + b)
    ensures DigitsValue(a + b) == DigitsValue(a) * Pow10(|b|) + DigitsValue(b)
  {
    var ab := a + b;
    assert AllDigits(ab) by {
      forall i | 0 <= i < |ab| ensures IsDigit(ab[i]) {
        if i < |a| { assert ab[i] == a[i]; } else { assert ab[i] == b[i - |a|]; }
      }
    }
    if |b| == 0 {
      assert ab == a;
    } else {
      var b' := b[..|b| - 1];
      var d := DigitValue(b[|b| - 1]);
      assert ab[..|ab| - 1] == a + b';
      assert ab[|ab| - 1] == b[|b| - 1];
      DigitsValueAppend(a, b');
      assert DigitsValue(ab) == 10 * DigitsValue(a + b') + d;
      assert DigitsValue(b) == 10 * DigitsValue(b') + d;
      assert Pow10(|b|) == 10 * Pow10(|b'|);
      ShiftDigit(DigitsValue(a), Pow10(|b'|), DigitsValue(b'), d);
    }
  }

  /** Appending one digit multiplies by ten: the arithmetic step of `DigitsValueAppend`. */
  lemma ShiftDigit(x: nat, p: nat, y: nat, d: nat)
    ensures 10 * (x * p + y) + d == x * (10 * p) + (10 * y + d)
  {
  }

  /** Reading back a rendered number gives the number: `NatToString` and `DigitsValue` are inverse. */
  lemma {:induction false} NatToStringRoundTrip(n: nat)
    ensures DigitsValue(NatToString(n)) == n
  {
    if n >= 10 {
      var r := NatToString(n);
      assert r[..|r| - 1] == NatToString(n / 10);
      NatToStringRoundTrip(n / 10);
    }
  }

  /** Stripping separators distributes over concatenation. */
  lemma {:induction false} StripAppend(a: string, b: string)
    ensures StripSeparators(a + b) == StripSeparators(a) + StripSeparators(b)
  {
    if |a| == 0 {
      assert a + b == b;
    } else {
      assert (a + b)[1..] == a[1..] + b;
      StripAppend(a[1..], b);
    }
  }

  lemma StripDigits(s: string)
    requires AllDigits(s)
    ensures StripSeparators(s) == s
  {
    if |s| > 0 {
      StripDigits(s[1..]);
      assert [s[0]] + s[1..] == s;
    }
  }

  /** Character-class facts about concatenation, used by the price lemmas below. */
  lemma PriceCharsAppend(a: string, b: string)
    ensures PriceChars(a + b) <==> PriceChars(a) && PriceChars(b)
    ensures HasDigit(a + b) <==> HasDigit(a) || HasDigit(b)
  {
    var ab := a + b;
    if PriceChars(a) && PriceChars(b) {
      forall i | 0 <= i < |ab| ensures IsDigit(ab[i]) || IsSeparator(ab[i]) {
        if i < |a| { assert ab[i] == a[i]; } else { assert ab[i] == b[i - |a|]; }
      }
    }
    if PriceChars(ab) {
      forall i | 0 <= i < |a| ensures IsDigit(a[i]) || IsSeparator(a[i]) {
        assert ab[i] == a[i];
      }
      forall i | 0 <= i < |b| ensures IsDigit(b[i]) || IsSeparator(b[i]) {
        assert ab[|a| + i] == b[i];
      }
    }
    if HasDigit(ab) {
      var k :| 0 <= k < |ab| && IsDigit(ab[k]);
      if k < |a| { assert ab[k] == a[k]; } else { assert ab[k] == b[k - |a|]; }
    }
    if HasDigit(a) {
      var k :| 0 <= k < |a| && IsDigit(a[k]);
      assert ab[k] == a[k];
    }
    if HasDigit(b) {
      var k :| 0 <= k < |b| && IsDigit(b[k]);
      assert ab[|a| + k] == b[k];
    }
  }

  /** A separator contributes nothing to a price, wherever it stands. */
  lemma SeparatorIgnored(a: string, b: string, sep: char)
    requires IsSeparator(sep)
    requires ValidPrice(a + b)
    ensures ValidPrice(a + [sep] + b)
    ensures ParsePrice(a + [sep] + b) == ParsePrice(a + b)
  {
    PriceCharsAppend(a, b);
    PriceCharsAppend(a, [sep]);
    PriceCharsAppend(a + [sep], b);
    assert !HasDigit([sep]);
    StripAppend(a + [sep], b);
    StripAppend(a, [sep]);
    StripAppend(a, b);
    assert StripSeparators([sep]) == [];
    assert StripSeparators(a + [sep]) == StripSeparators(a);
    assert StripSeparators(a + [sep] + b) == StripSeparators(a + b);
  }

  /** A grouped rendering contains only digits and the chosen separator, and reads back as `n`. */
  lemma {:induction false} GroupShape(n: nat, sep: char)
    requires IsSeparator(sep)
    ensures ValidPrice(Group(n, sep))
    ensures AllDigits(StripSeparators(Group(n, sep)))
    ensures DigitsValue(StripSeparators(Group(n, sep))) == n
  {
    if n < 1000 {
      var r := NatToString(n);
      DigitsArePriceChars(r);
      StripDigits(r);
      NatToStringRoundTrip(n);
    } else {
      var hi := Group(n / 1000, sep);
      var lo := Pad3(n % 1000);
      GroupShape(n / 1000, sep);
      GroupStep(hi, sep, lo);
      var sh := StripSeparators(hi);
      DigitsValueAppend(sh, lo);
      Pad3Value(n % 1000);
      assert Pow10(|lo|) == 1000;
      assert DigitsValue(sh + lo) == n / 1000 * 1000 + n % 1000;
    }
  }

  /** One thousands group appended after a separator: still a price, and stripping keeps the digits. */
  lemma GroupStep(hi: string, sep: char, lo: string)
    requires IsSeparator(sep) && ValidPrice(hi) && AllDigits(lo) && |lo| > 0
    ensures ValidPrice(hi + [sep] + lo)
    ensures StripSeparators(hi + [sep] + lo) == StripSeparators(hi) + lo
  {
    GroupStepValid(hi, sep, lo);
    var hs := hi + [sep];
    StripAppend(hs, lo);
    StripAppend(hi, [sep]);
    assert StripSeparators([sep]) == [];
    assert StripSeparators(hs) == StripSeparators(hi);
    StripDigits(lo);
  }

  lemma GroupStepValid(hi: string, sep: char, lo: string)
    requires IsSeparator(sep) && ValidPrice(hi) && AllDigits(lo) && |lo| > 0
    ensures ValidPrice(hi + [sep] + lo)
  {
    var hs := hi + [sep];
    DigitsArePriceChars(lo);
    assert PriceChars([sep]);
    PriceCharsAppend(hi, [sep]);
    assert PriceChars(hs) && HasDigit(hs);
    PriceCharsAppend(hs, lo);
  }

  lemma DigitsArePriceChars(s: string)
    requires AllDigits(s) && |s| > 0
    ensures PriceChars(s) && HasDigit(s)
  {
    assert IsDigit(s[0]);
  }

  lemma Pad3Value(k: nat)
    requires k < 1000
    ensures DigitsValue(Pad3(k)) == k
  {
    var p := Pad3(k);
    var a, b, c := k / 100, k / 10 % 10, k % 10;
    assert p[..2][..1] == [p[0]];
    assert DigitsValue([p[0]]) == a by {
      assert [p[0]][..0] == [];
    }
    assert DigitsValue(p[..2]) == 10 * a + b;
    assert DigitsValue(p) == 10 * (10 * a + b) + c;
    assert 100 * a + 10 * b + c == k;
  }

  /**
   * Thousands grouping round-trips through the price parser, for either
   * separator: the parse strips exactly what the grouping inserts.
   */
  lemma ParseGroupedPrice(n: nat, sep: char)
    requires IsSeparator(sep)
    ensures ValidPrice(Group(n, sep))
    ensures ParsePrice(Group(n, sep)) == n
  {
    GroupShape(n, sep);
  }

  /** "55,000" reads as 55000. */
  lemma Price55000()
    ensures ValidPrice("55,000") && ParsePrice("55,000") == 55000
  {
    assert NatToString(55) == "55";
    assert Pad3(0) == "000";
    assert Group(55000, ',') == "55,000";
    ParseGroupedPrice(55000, ',');
  }

  /** "150,000" reads as 150000. */
  lemma Price150000()
    ensures ValidPrice("150,000") && ParsePrice("150,000") == 150000
  {
    assert NatToString(15) == "15";
    assert NatToString(150) == "150";
    assert Pad3(0) == "000";
    assert Group(150000, ',') == "150,000";
    ParseGroupedPrice(150000, ',');
  }
}

=== FILE: hero_banner.dfy ===
/**
 * The home-page carousel: four slides, next/previous arrows that wrap
 * around, indicator dots that jump to a slide, a play/pause toggle, and an
 * autoplay timer that advances the slide while playing. Timer ticks are
 * events; their five-second spacing is not modelled.
 */
module HeroBanner {
  import Decimal

  datatype Slide = Slide(id: nat, title: string, productId: nat)

  const Slides: seq<Slide> := [
    Slide(1, "Rượu Dâu Premium", 4),
    Slide(2, "Rượu Cốm Hảo Hạng", 8),
    Slide(3, "Rượu Nếp Cẩm Đặc Biệt", 6),
    Slide(4, "Rượu Mơ Đặc Biệt", 10)
  ]

  const SlideCount := |Slides|

  datatype Banner = Banner(current: int, playing: bool)

  /** The first slide, playing. */
  const Initial := Banner(0, true)

  datatype Event = NextClick | PrevClick | DotClick(index: int) | TogglePlay | TimerTick

  /** The slide after `i`, wrapping from the last to the first. */
  function Next(i: int): (r: int)
    requires 0 <= i < SlideCount
    ensures 0 <= r < SlideCount
    ensures i < SlideCount - 1 ==> r == i + 1
    ensures i == SlideCount - 1 ==> r == 0
  {
    (i + 1) % SlideCount
  }

  /** The slide before `i`, wrapping from the first to the last. */
  function Prev(i: int): (r: int)
    requires 0 <= i < SlideCount
    ensures 0 <= r < SlideCount
    ensures i > 0 ==> r == i - 1
    ensures i == 0 ==> r == SlideCount - 1
  {
    (i - 1 + SlideCount) % SlideCount
  }

  /** Next and previous undo each other. */
  lemma PrevNextInverse(i: int)
    requires 0 <= i < SlideCount
    ensures Prev(Next(i)) == i && Next(Prev(i)) == i
  {
  }

  /** The indicator dots offer exactly the slide indices. */
  predicate Admissible(e: Event) {
    e.DotClick? ==> 0 <= e.index < SlideCount
  }

  function Step(b: Banner, e: Event): (r: Banner)
    requires 0 <= b.current < SlideCount && Admissible(e)
    ensures 0 <= r.current < SlideCount
    ensures e.TogglePlay? <==> r.playing != b.playing
    ensures e.TimerTick? && !b.playing ==> r == b
    ensures e.DotClick? ==> r == Banner(e.index, b.playing)
  {
    match e
    case NextClick => Banner(Next(b.current), b.playing)
    case PrevClick => Banner(Prev(b.current), b.playing)
    case DotClick(index) => Banner(index, b.playing)
    case TogglePlay => Banner(b.current, !b.playing)
    case TimerTick => if b.playing then Banner(Next(b.current), b.playing) else b
  }

  function Run(b: Banner, events: seq<Event>): (r: Banner)
    requires 0 <= b.current < SlideCount
    requires forall k :: 0 <= k < |events| ==> Admissible(events[k])
    ensures 0 <= r.current < SlideCount
    decreases |events|
  {
    if |events| == 0 then b else Run(Step(b, events[0]), events[1..])
  }

  /** Whatever the visitor does, the slide shown is one of the four. */
  lemma ShownSlideExists(events: seq<Event>)
    requires forall k :: 0 <= k < |events| ==> Admissible(events[k])
    ensures 0 <= Run(Initial, events).current < |Slides|
  {
  }

  /** `n` autoplay ticks while playing. */
  function Ticks(b: Banner, n: nat): (r: Banner)
    requires 0 <= b.current < SlideCount
    ensures 0 <= r.current < SlideCount && r.playing == b.playing
    decreases n
  {
    if n == 0 then b else Ticks(Step(b, TimerTick), n - 1)
  }

  /** While playing, `n` ticks advance the slide by `n` positions around the ring. */
  lemma {:induction false} TicksAdvance(b: Banner, n: nat)
    requires 0 <= b.current < SlideCount && b.playing
    ensures Ticks(b, n).current == (b.current + n) % SlideCount
    decreases n
  {
    if n > 0 {
      var c := b.current;
      TicksAdvance(Step(b, TimerTick), n - 1);
      assert Step(b, TimerTick).current == Next(c);
      WrapStep(c, n - 1);
    }
  }

  /** Wrapping after one step and then advancing `m` is advancing `m + 1`. */
  lemma WrapStep(c: int, m: nat)
    requires 0 <= c < SlideCount
    ensures (Next(c) + m) % SlideCount == (c + 1 + m) % SlideCount
  {
    if c == SlideCount - 1 {
      assert (SlideCount + m) % SlideCount == m % SlideCount;
    }
  }

  /** A full round of autoplay comes back to the slide it started on. */
  lemma FullRoundReturns(b: Banner)
    requires 0 <= b.current < SlideCount && b.playing
    ensures Ticks(b, SlideCount) == b
  {
    TicksAdvance(b, SlideCount);
  }

  /** While paused the timer changes nothing. */
  lemma {:induction false} PausedTicksStay(b: Banner, n: nat)
    requires 0 <= b.current < SlideCount && !b.playing
    ensures Ticks(b, n) == b
    decreases n
  {
    if n > 0 {
      PausedTicksStay(Step(b, TimerTick), n - 1);
    }
  }

  /** The product page a slide's button opens. */
  function ProductLink(i: int): (r: string)
    requires 0 <= i < SlideCount
    ensures |r| > 6 && r[..6] == "/wine/" && Decimal.AllDigits(r[6..])
    ensures Decimal.DigitsValue(r[6..]) == Slides[i].productId
  {
    var r := "/wine/" + Decimal.NatToString(Slides[i].productId);
    Decimal.NatToStringRoundTrip(Slides[i].productId);
    assert r[6..] == Decimal.NatToString(Slides[i].productId);
    r
  }

  /** The gift collection the "view collection" button opens. */
  const CollectionLink := "/products?category=Quà Tặng"
}

=== FILE: order_status.dfy ===
/**
 * Order statuses as the pages present them: the five recognised values,
 * their badge labels (with an explicit "unknown" label for anything else),
 * the status changes the admin panel offers, and the four-stage delivery
 * timeline.
 */
module OrderStatus {
  import opened Wrappers

  datatype Status = Pending | Confirmed | Shipping | Delivered | Cancelled

  /** The wire value of a status. */
  function Name(st: Status): string {
    match st
    case Pending => "pending"
    case Confirmed => "confirmed"
    case Shipping => "shipping"
    case Delivered => "delivered"
    case Cancelled => "cancelled"
  }

  /** The recognised status a string stands for, if any. */
  function Parse(s: string): (r: Option<Status>)
    ensures r.Some? ==> Name(r.value) == s
  {
    if s == "pending" then Some(Pending)
    else if s == "confirmed" then Some(Confirmed)
    else if s == "shipping" then Some(Shipping)
    else if s == "delivered" then Some(Delivered)
    else if s == "cancelled" then Some(Cancelled)
    else None
  }

  /** Every status reads back from its name, so `Parse` and `Name` are inverse on recognised values. */
  lemma ParseName(st: Status)
    ensures Parse(Name(st)) == Some(st)
  {
  }

  const UnknownLabel := "Không xác định"

  /** The badge text shown for a status string (the same on the admin and order-history pages). */
  function Badge(status: string): (text: string)
    ensures text == UnknownLabel <==> Parse(status).None?
    ensures text != ""
  {
    match Parse(status)
    case Some(Pending) => "Đang xử lý"
    case Some(Confirmed) => "Đã xác nhận"
    case Some(Shipping) => "Đang giao hàng"
    case Some(Delivered) => "Đã giao hàng"
    case Some(Cancelled) => "Đã hủy"
    case None => UnknownLabel
  }

  /**
   * The five recognised statuses get five different labels, none of them
   * the "unknown" label; every other string gets the "unknown" label.
   */
  lemma BadgeLabels(status: string, a: Status, b: Status)
    ensures Parse(status).None? <==> Badge(status) == UnknownLabel
    ensures a != b ==> Badge(Name(a)) != Badge(Name(b))
  {
  }

  /** The status changes the admin panel offers for an order in `status`. */
  function OfferedNext(status: string): (r: seq<string>)
    ensures |r| <= 2
  {
    match Parse(status)
    case Some(Pending) => [Name(Confirmed), Name(Cancelled)]
    case Some(Confirmed) => [Name(Shipping)]
    case Some(Shipping) => [Name(Delivered)]
    case _ => []
  }

  /** The happy-path stage of a status; cancelled has none. */
  function Stage(st: Status): (r: Option<nat>)
    ensures r.None? <==> st == Cancelled
    ensures r.Some? ==> r.value < 4
    ensures st == Pending <==> r == Some(0)
  {
    match st
    case Pending => Some(0)
    case Confirmed => Some(1)
    case Shipping => Some(2)
    case Delivered => Some(3)
    case Cancelled => None
  }

  /**
   * The offered changes are exactly pending to confirmed or cancelled,
   * confirmed to shipping and shipping to delivered: each either advances
   * one stage or cancels a pending order, and delivered, cancelled and
   * unrecognised statuses are offered nothing.
   */
  lemma OfferedTransitions(status: string, next: string)
    ensures next in OfferedNext(status) <==>
      || (status == "pending" && (next == "confirmed" || next == "cancelled"))
      || (status == "confirmed" && next == "shipping")
      || (status == "shipping" && next == "delivered")
    ensures next in OfferedNext(status) ==>
      var from := Parse(status);
      var to := Parse(next);
      && from.Some? && to.Some?
      && (|| (Stage(from.value).Some? && Stage(to.value).Some? && Stage(to.value).value == Stage(from.value).value + 1)
          || (from.value == Pending && to.value == Cancelled))
    ensures OfferedNext(status) == [] <==> status != "pending" && status != "confirmed" && status != "shipping"
  {
  }

  /** Whether timeline step `k` (0 placed, 1 confirmed, 2 shipping, 3 delivered) is lit, as the admin panel tests it. */
  function TimelineLit(status: string, k: nat): (lit: bool)
    requires k < 4
    ensures lit ==> Parse(status).Some? && Parse(status).value != Cancelled
    ensures status == "delivered" ==> lit
  {
    if k == 0 then status == "pending" || status == "confirmed" || status == "shipping" || status == "delivered"
    else if k == 1 then status == "confirmed" || status == "shipping" || status == "delivered"
    else if k == 2 then status == "shipping" || status == "delivered"
    else status == "delivered"
  }

  /**
   * Step `k` is lit exactly when the status has reached stage `k`; lit steps
   * form a prefix of the timeline, and a cancelled or unrecognised order
   * lights none.
   */
  lemma TimelineMonotone(status: string, k: nat)
    requires k < 4
    ensures TimelineLit(status, k) <==>
      Parse(status).Some? && Stage(Parse(status).value).Some? && Stage(Parse(status).value).value >= k
    ensures k > 0 && TimelineLit(status, k) ==> TimelineLit(status, k - 1)
    ensures status == "cancelled" ==> !TimelineLit(status, k)
  {
  }
}

=== FILE: orders.dfy ===
/**
 * The order record shared by checkout, the order history and the admin
 * panel, with the two list operations they all use: the orders of one
 * user, and newest-first ordering by creation time.
 */
module Orders {
  import opened Wrappers
  import Cart
  import Seqs

  datatype CustomerInfo = CustomerInfo(
    name: string, email: string, phone: string, address: string, notes: string, paymentMethod: string)

  /**
   * An order as kept on the device. `userId` is absent when the order was
   * placed without a signed-in user; `createdAt` is the creation time as a
   * number (the pages store an ISO timestamp and compares its time value).
   */
  datatype Order = Order(
    id: string, userId: Option<string>, items: seq<Cart.CartItem>, customerInfo: CustomerInfo,
    total: int, status: string, createdAt: int)

  /** The orders placed by this user, in their stored order. */
  function OrdersOf(orders: seq<Order>, userId: string): (r: seq<Order>)
    ensures forall i :: 0 <= i < |r| ==> r[i].userId == Some(userId) && r[i] in orders
    ensures forall i :: 0 <= i < |orders| && orders[i].userId == Some(userId) ==> orders[i] in r
    ensures Seqs.IsSubsequence(r, orders)
  {
    Seqs.Filter(orders, (o: Order) => o.userId == Some(userId))
  }

  predicate NewestFirst(orders: seq<Order>) {
    forall i, j :: 0 <= i < j < |orders| ==> orders[i].createdAt >= orders[j].createdAt
  }

  /** Places `o` before the first order that is not newer than it. */
  function Insert(o: Order, sorted: seq<Order>): (r: seq<Order>)
    requires NewestFirst(sorted)
    ensures NewestFirst(r)
    ensures multiset(r) == multiset(sorted) + multiset{o}
    ensures |r| == |sorted| + 1
    ensures r[0] == o || (|sorted| > 0 && r[0] == sorted[0])
  {
    if |sorted| == 0 then [o]
    else if o.createdAt >= sorted[0].createdAt then [o] + sorted
    else
      var rest := Insert(o, sorted[1..]);
      assert sorted == [sorted[0]] + sorted[1..];
      assert sorted[0].createdAt >= rest[0].createdAt;
      [sorted[0]] + rest
  }

  /** The same orders, newest creation time first (the pages' sort comparator `b - a`). */
  function SortNewestFirst(orders: seq<Order>): (r: seq<Order>)
    ensures NewestFirst(r)
    ensures multiset(r) == multiset(orders)
    ensures |r| == |orders|
  {
    if |orders| == 0 then []
    else
      assert orders == [orders[0]] + orders[1..];
      Insert(orders[0], SortNewestFirst(orders[1..]))
  }
}

=== FILE: orders_api.dfy ===
/**
 * The order endpoint: POST stores an order and its item rows in the
 * database, deleting the order again when the items cannot be stored; GET
 * lists the stored orders (optionally of one user), newest first, mapped
 * back to the record the pages use. The database is two row lists; the
 * generated order id, the clock and whether each database call succeeds are
 * parameters.
 */
module OrdersApi {
  import opened Wrappers
  import opened Decimal
  import Cart
  import Orders
  import Seqs

  /** A row of the `orders` table; `userId` is absent when the posted id did not parse as an integer. */
  datatype OrderRow = OrderRow(
    id: string, userId: Option<nat>, customerInfo: Orders.CustomerInfo, totalAmount: int, status: string, createdAt: int)

  /** A row of the `order_items` table. */
  datatype ItemRow = ItemRow(
    orderId: string, productId: int, productName: string, productPrice: string,
    productImage: string, productType: string, quantity: int)

  datatype Db = Db(orders: seq<OrderRow>, items: seq<ItemRow>)

  /** The JSON body of a POST; absent keys are `None`. */
  datatype PostBody = PostBody(
    userId: Option<string>, items: Option<seq<Cart.CartItem>>, customerInfo: Option<Orders.CustomerInfo>,
    total: Option<int>, status: Option<string>)

  datatype PostResponse = Created(orderId: string) | BadRequest | ServerError

  datatype GetResponse = Listed(orders: seq<Orders.Order>) | GetFailed

  function PostCode(r: PostResponse): int {
    match r
    case Created(_) => 200
    case BadRequest => 400
    case ServerError => 500
  }

  const DefaultStatus := "pending"

  // ---------------------------------------------------------------------------
  // Integer parsing of the user id

  /** The leading run of decimal digits. */
  function DigitPrefix(s: string): (r: string)
    ensures |r| <= |s| && r == s[..|r|] && AllDigits(r)
    ensures |r| < |s| ==> !IsDigit(s[|r|])
  {
    if |s| > 0 && IsDigit(s[0]) then [s[0]] + DigitPrefix(s[1..]) else []
  }

  /** `Number.parseInt` on a string: the value of its leading digits, or no number. */
  function ParseInt(s: string): (r: Option<nat>)
    ensures r.None? <==> (|s| == 0 || !IsDigit(s[0]))
  {
    var p := DigitPrefix(s);
    if |p| == 0 then None else Some(DigitsValue(p))
  }

  /** Parsing a rendered number gives it back. */
  lemma ParseRendered(n: nat)
    ensures ParseInt(NatToString(n)) == Some(n)
  {
    var s := NatToString(n);
    assert DigitPrefix(s) == s;
    NatToStringRoundTrip(n);
  }

  // ---------------------------------------------------------------------------
  // Item rows

  function ToRow(orderId: string, item: Cart.CartItem): ItemRow {
    ItemRow(orderId, item.id, item.name, item.price, item.image, item.wineType, item.quantity)
  }

  function FromRow(row: ItemRow): Cart.CartItem {
    Cart.CartItem(row.productId, row.productName, row.productPrice, row.productImage, row.quantity, row.productType)
  }

  /** The item rows written for an order, one per cart line, in cart order. */
  function ToRows(orderId: string, items: seq<Cart.CartItem>): (r: seq<ItemRow>)
    ensures |r| == |items|
    ensures forall i :: 0 <= i < |r| ==> r[i].orderId == orderId
  {
    if |items| == 0 then [] else [ToRow(orderId, items[0])] + ToRows(orderId, items[1..])
  }

  function FromRows(rows: seq<ItemRow>): (r: seq<Cart.CartItem>)
    ensures |r| == |rows|
    ensures forall i :: 0 <= i < |rows| ==>
      && r[i].id == rows[i].productId && r[i].name == rows[i].productName
      && r[i].price == rows[i].productPrice && r[i].image == rows[i].productImage
      && r[i].quantity == rows[i].quantity && r[i].wineType == rows[i].productType
  {
    if |rows| == 0 then [] else [FromRow(rows[0])] + FromRows(rows[1..])
  }

  /** Reading back the rows written for a cart gives the cart lines unchanged. */
  lemma {:induction false} ItemsRoundTrip(orderId: string, items: seq<Cart.CartItem>)
    ensures FromRows(ToRows(orderId, items)) == items
  {
    if |items| > 0 {
      ItemsRoundTrip(orderId, items[1..]);
      assert items == [items[0]] + items[1..];
    }
  }

  // ---------------------------------------------------------------------------
  // POST

  predicate Truthy(s: Option<string>) {
    s.Some? && s.value != ""
  }

  /** The required fields are present: a user id, an item list (possibly empty), customer data and a non-zero total. */
  predicate Complete(body: PostBody) {
    Truthy(body.userId) && body.items.Some? && body.customerInfo.Some? && body.total.Some? && body.total.value != 0
  }

  /** The order row a complete body produces; an absent status becomes "pending". */
  function NewRow(body: PostBody, orderId: string, now: int): (row: OrderRow)
    requires Complete(body)
    ensures row.id == orderId
    ensures body.status.None? ==> row.status == DefaultStatus
    ensures body.status.Some? ==> row.status == body.status.value
  {
    OrderRow(orderId, ParseInt(body.userId.value), body.customerInfo.value, body.total.value,
             body.status.GetOr(DefaultStatus), now)
  }

  function OtherThan(orderId: string): OrderRow -> bool {
    (r: OrderRow) => r.id != orderId
  }

  /**
   * Handles a POST. `body` is absent when the request is not JSON;
   * `orderSaved`, `itemsSaved` and `deleted` say whether the three database
   * calls succeed.
   */
  function Post(db: Db, body: Option<PostBody>, orderId: string, now: int,
                orderSaved: bool, itemsSaved: bool, deleted: bool): (out: (PostResponse, Db))
    ensures body.None? || !Complete(body.value) ==> out.1 == db
    ensures body.None? ==> out.0 == ServerError
    ensures body.Some? && !Complete(body.value) ==> out.0 == BadRequest
    ensures out.0.Created? <==> body.Some? && Complete(body.value) && orderSaved && itemsSaved
    ensures out.0.Created? ==> out.0.orderId == orderId
    ensures !orderSaved ==> out.1 == db
  {
    if body.None? then (ServerError, db)
    else if !Complete(body.value) then (BadRequest, db)
    else if !orderSaved then (ServerError, db)
    else
      var withOrder := Db(db.orders + [NewRow(body.value, orderId, now)], db.items);
      if itemsSaved then
        (Created(orderId), Db(withOrder.orders, db.items + ToRows(orderId, body.value.items.value)))
      else if deleted then
        (ServerError, Db(Seqs.Filter(withOrder.orders, OtherThan(orderId)), db.items))
      else
        (ServerError, withOrder)
  }

  /** No stored row uses this order id yet. */
  predicate FreshId(db: Db, orderId: string) {
    && (forall i :: 0 <= i < |db.orders| ==> db.orders[i].id != orderId)
    && (forall i :: 0 <= i < |db.items| ==> db.items[i].orderId != orderId)
  }

  /** A failed item insert followed by a successful delete leaves the database as it was. */
  lemma {:induction false} FailedItemsRollBack(db: Db, body: PostBody, orderId: string, now: int)
    requires Complete(body) && FreshId(db, orderId)
    ensures Post(db, Some(body), orderId, now, true, false, true) == (ServerError, db)
  {
    var keep := OtherThan(orderId);
    var row := NewRow(body, orderId, now);
    Seqs.FilterAppend(db.orders, [row], keep);
    Seqs.FilterKeepsAll(db.orders, keep);
    assert Seqs.Filter([row], keep) == [];
    assert Seqs.Filter(db.orders + [row], keep) == db.orders;
    assert Db(Seqs.Filter(db.orders + [row], keep), db.items) == db;
  }

  /** When the delete also fails, the order row stays behind without items. */
  lemma FailedDeleteLeavesOrphan(db: Db, body: PostBody, orderId: string, now: int)
    requires Complete(body)
    ensures
      var out := Post(db, Some(body), orderId, now, true, false, false);
      && out.0 == ServerError
      && out.1.orders == db.orders + [NewRow(body, orderId, now)]
      && out.1.items == db.items
  {
  }

  // ---------------------------------------------------------------------------
  // GET

  function BelongsTo(orderId: string): ItemRow -> bool {
    (ir: ItemRow) => ir.orderId == orderId
  }

  /** The item rows of one order, in stored order. */
  function ItemsOf(items: seq<ItemRow>, orderId: string): (r: seq<ItemRow>)
    ensures forall i :: 0 <= i < |r| ==> r[i].orderId == orderId && r[i] in items
    ensures forall i :: 0 <= i < |items| && items[i].orderId == orderId ==> items[i] in r
    ensures Seqs.IsSubsequence(r, items)
  {
    Seqs.Filter(items, BelongsTo(orderId))
  }

  /** A stored order mapped back to the page's record; the user id is written back in decimal. */
  function ToOrder(row: OrderRow, items: seq<ItemRow>): (o: Orders.Order)
    requires row.userId.Some?
    ensures o.id == row.id && o.userId == Some(NatToString(row.userId.value))
    ensures o.total == row.totalAmount && o.status == row.status && o.createdAt == row.createdAt
    ensures o.customerInfo == row.customerInfo
  {
    Orders.Order(row.id, Some(NatToString(row.userId.value)), FromRows(ItemsOf(items, row.id)),
                 row.customerInfo, row.totalAmount, row.status, row.createdAt)
  }

  function ToOrders(rows: seq<OrderRow>, items: seq<ItemRow>): (r: seq<Orders.Order>)
    requires forall i :: 0 <= i < |rows| ==> rows[i].userId.Some?
    ensures |r| == |rows|
    ensures forall i :: 0 <= i < |rows| ==> r[i] == ToOrder(rows[i], items)
  {
    if |rows| == 0 then [] else [ToOrder(rows[0], items)] + ToOrders(rows[1..], items)
  }

  function PlacedBy(userId: string): OrderRow -> bool {
    (r: OrderRow) => r.userId.Some? && NatToString(r.userId.value) == userId
  }

  /** The rows a GET selects: all of them, or those whose user id reads as `userId`. */
  function Selected(db: Db, userId: Option<string>): (r: seq<OrderRow>)
    ensures Truthy(userId) ==>
      forall i :: 0 <= i < |r| ==> r[i].userId.Some? && NatToString(r[i].userId.value) == userId.value
    ensures Truthy(userId) ==>
      forall i :: 0 <= i < |db.orders| ==>
        (db.orders[i].userId.Some? && NatToString(db.orders[i].userId.value) == userId.value ==> db.orders[i] in r)
    ensures !Truthy(userId) ==> r == db.orders
    ensures Seqs.IsSubsequence(r, db.orders)
  {
    if Truthy(userId) then
      Seqs.Filter(db.orders, PlacedBy(userId.value))
    else
      Seqs.SubsequenceRefl(db.orders);
      db.orders
  }

  /**
   * Handles a GET; `queryOk` says whether the database call succeeds. A
   * selected row without a user id makes the mapping throw, which the
   * handler answers like a database error.
   */
  function Get(db: Db, userId: Option<string>, queryOk: bool): (r: GetResponse)
    ensures r.Listed? ==> Orders.NewestFirst(r.orders) && |r.orders| == |Selected(db, userId)|
    ensures r.GetFailed? <==>
      !queryOk || exists i :: 0 <= i < |Selected(db, userId)| && Selected(db, userId)[i].userId.None?
    ensures r.Listed? ==> multiset(r.orders) == multiset(ToOrders(Selected(db, userId), db.items))
  {
    var rows := Selected(db, userId);
    if !queryOk || exists i :: 0 <= i < |rows| && rows[i].userId.None? then GetFailed
    else
      Listed(Orders.SortNewestFirst(ToOrders(rows, db.items)))
  }

  /** A GET for one user lists only that user's orders. */
  lemma GetListsOnlyThatUser(db: Db, userId: string, queryOk: bool)
    requires userId != ""
    ensures Get(db, Some(userId), queryOk).Listed? ==>
      forall i :: 0 <= i < |Get(db, Some(userId), queryOk).orders| ==>
        Get(db, Some(userId), queryOk).orders[i].userId == Some(userId)
  {
    var rows := Selected(db, Some(userId));
    if Get(db, Some(userId), queryOk).Listed? {
      var mapped := ToOrders(rows, db.items);
      var r := Orders.SortNewestFirst(mapped);
      forall i | 0 <= i < |r| ensures r[i].userId == Some(userId) {
        assert r[i] in multiset(mapped);
        var j :| 0 <= j < |mapped| && mapped[j] == r[i];
        assert mapped[j] == ToOrder(rows[j], db.items);
      }
    }
  }

  /** Under a user filter no selected row lacks a user id, so only a database error fails the request. */
  lemma FilteredGetFailsOnlyOnError(db: Db, userId: string)
    requires userId != ""
    ensures Get(db, Some(userId), true) == Listed(Orders.SortNewestFirst(ToOrders(Selected(db, Some(userId)), db.items)))
  {
  }

  /**
   * An order posted by a user whose id is a rendered number is listed back
   * by a GET for that user with the same id, items, customer data, total,
   * status and creation time.
   */
  lemma PostThenGet(db: Db, n: nat, body: PostBody, orderId: string, now: int)
    requires Complete(body) && body.userId == Some(NatToString(n)) && FreshId(db, orderId)
    ensures
      var db' := Post(db, Some(body), orderId, now, true, true, true).1;
      var listed := Get(db', body.userId, true);
      && listed.Listed?
      && Orders.Order(orderId, body.userId, body.items.value, body.customerInfo.value, body.total.value,
                      NewRow(body, orderId, now).status, now) in listed.orders
  {
    var row := NewRow(body, orderId, now);
    ParseRendered(n);
    var db' := Post(db, Some(body), orderId, now, true, true, true).1;
    var written := ToRows(orderId, body.items.value);
    assert db' == Db(db.orders + [row], db.items + written);
    StoredItemsReadBack(db, orderId, body.items.value);
    var o := ToOrder(row, db'.items);
    assert o == Orders.Order(orderId, body.userId, body.items.value, body.customerInfo.value, body.total.value,
                             row.status, now);
    SelectedIncludes(db.orders, row, NatToString(n));
    var rows := Selected(db', body.userId);
    var k :| 0 <= k < |rows| && rows[k] == row;
    var mapped := ToOrders(rows, db'.items);
    assert mapped[k] == o;
    assert o in multiset(mapped);
    FilteredGetFailsOnlyOnError(db', NatToString(n));
    assert o in multiset(Orders.SortNewestFirst(mapped));
  }

  /** The item rows of a freshly stored order are exactly the rows written for it, and read back as its items. */
  lemma StoredItemsReadBack(db: Db, orderId: string, items: seq<Cart.CartItem>)
    requires FreshId(db, orderId)
    ensures FromRows(ItemsOf(db.items + ToRows(orderId, items), orderId)) == items
  {
    var written := ToRows(orderId, items);
    Seqs.FilterAppend(db.items, written, BelongsTo(orderId));
    Seqs.FilterKeepsAll(written, BelongsTo(orderId));
    Seqs.FilterDropsAll(db.items, BelongsTo(orderId));
    assert ItemsOf(db.items + written, orderId) == written;
    ItemsRoundTrip(orderId, items);
  }

  /** A row appended under a user's id is among the rows a GET for that user selects. */
  lemma SelectedIncludes(orders: seq<OrderRow>, row: OrderRow, userId: string)
    requires userId != "" && row.userId.Some? && NatToString(row.userId.value) == userId
    ensures row in Seqs.Filter(orders + [row], PlacedBy(userId))
  {
    assert (orders + [row])[|orders|] == row;
  }
}

=== FILE: orders_page.dfy ===
/**
 * The customer's order history: loading the orders of the signed-in user
 * (from the server, falling back to the device copy), and which actions
 * each order offers.
 */
module OrdersPage {
  import opened Wrappers
  import opened Orders
  import Auth
  import OrderStatus

  /** How the request to the order endpoint ended. */
  datatype FetchResult = Fetched(orders: seq<Order>) | HttpError | NetworkError

  datatype View = View(orders: seq<Order>, loading: bool)

  /** The id of the signed-in user, when there is a non-empty one. */
  function SignedInId(auth: Auth.AuthState): (r: Option<string>)
    ensures r.Some? ==> auth.isAuthenticated && auth.user.Some? && r.value == auth.user.value.id && r.value != ""
  {
    if auth.isAuthenticated && auth.user.Some? && auth.user.value.id != "" then Some(auth.user.value.id) else None
  }

  /** Loads the order list: nothing happens without a signed-in user id. */
  function FetchOrders(auth: Auth.AuthState, result: FetchResult, saved: seq<Order>, view: View): (r: View)
    ensures SignedInId(auth).None? ==> r == view
    ensures SignedInId(auth).Some? ==> !r.loading
    ensures SignedInId(auth).Some? && result.Fetched? ==> r.orders == result.orders
  {
    match SignedInId(auth)
    case None => view
    case Some(id) =>
      match result
      case Fetched(orders) => View(orders, false)
      case _ => View(SortNewestFirst(OrdersOf(saved, id)), false)
  }

  /**
   * When the server cannot be reached or refuses, the page shows exactly
   * the device's orders of this user, newest first.
   */
  lemma FallbackShowsOwnOrdersNewestFirst(auth: Auth.AuthState, result: FetchResult, saved: seq<Order>, view: View)
    requires SignedInId(auth).Some? && !result.Fetched?
    ensures
      var id := SignedInId(auth).value;
      var r := FetchOrders(auth, result, saved, view);
      && NewestFirst(r.orders)
      && multiset(r.orders) == multiset(OrdersOf(saved, id))
      && (forall i :: 0 <= i < |r.orders| ==> r.orders[i].userId == Some(id))
      && (forall i :: 0 <= i < |saved| && saved[i].userId == Some(id) ==> saved[i] in r.orders)
  {
    var id := SignedInId(auth).value;
    var own := OrdersOf(saved, id);
    var r := FetchOrders(auth, result, saved, view);
    assert r.orders == SortNewestFirst(own);
    forall i | 0 <= i < |r.orders| ensures r.orders[i].userId == Some(id) {
      assert r.orders[i] in multiset(own);
    }
    forall i | 0 <= i < |saved| && saved[i].userId == Some(id) ensures saved[i] in r.orders {
      assert saved[i] in multiset(r.orders);
    }
  }

  /** The status the cancel button asks for. */
  const CancelStatus := "cancelled"

  /** Cancel is offered only on pending orders. */
  predicate CancelOffered(status: string)
    ensures CancelOffered(status) <==> OrderStatus.Parse(status) == Some(OrderStatus.Pending)
  {
    status == "pending"
  }

  /** "Buy again" is offered only on delivered orders. */
  predicate BuyAgainOffered(status: string)
    ensures BuyAgainOffered(status) <==> OrderStatus.Parse(status) == Some(OrderStatus.Delivered)
  {
    status == "delivered"
  }

  /**
   * The customer's cancel is one of the changes the admin panel would offer
   * for that order, and no order offers both cancel and "buy again".
   */
  lemma CustomerActionsAgreeWithAdmin(status: string)
    ensures CancelOffered(status) ==> CancelStatus in OrderStatus.OfferedNext(status)
    ensures !(CancelOffered(status) && BuyAgainOffered(status))
    ensures OrderStatus.Parse(status).None? ==>
      !CancelOffered(status) && !BuyAgainOffered(status) && OrderStatus.Badge(status) == OrderStatus.UnknownLabel
  {
  }
}

=== FILE: products_page.dfy ===
/**
 * The catalog page's filtering: a free-text search from the address bar
 * overrides the sidebar; otherwise a category (gifts, or all products with
 * an optional wine type) and a volume filter narrow the list. Unicode case
 * folding is a parameter `lower`.
 */
module ProductsPage {
  import Catalog
  import Seqs

  const AllProducts := "Tất cả sản phẩm"
  const Gifts := "Quà Tặng"
  const AnyVolume := "all"

  /** The sidebar state: selected category, selected wine type ("" for none), expansion, volume filter. */
  datatype PageState = PageState(category: string, wineType: string, allExpanded: bool, volume: string)

  const InitialPage := PageState(AllProducts, "", true, AnyVolume)

  /** `needle` occurs in `hay` as a contiguous piece (so the empty string occurs everywhere). */
  predicate Contains(hay: string, needle: string) {
    exists i | 0 <= i <= |hay| - |needle| :: OccursAt(hay, needle, i)
  }

  predicate OccursAt(hay: string, needle: string, i: int) {
    0 <= i && i + |needle| <= |hay| && hay[i..i + |needle|] == needle
  }

  predicate MatchesSearch(p: Catalog.Product, search: string, lower: string -> string) {
    var q := lower(search);
    Contains(lower(p.name), q) || Contains(lower(p.wineType), q) || Contains(lower(p.description), q)
  }

  /**
   * The per-product test of the catalog page: a search decides alone; without
   * one, a volume choice admits only that volume, and a sidebar with no gift
   * category, no wine type and no volume choice admits everything.
   */
  predicate Keep(p: Catalog.Product, search: string, page: PageState, lower: string -> string)
    ensures search != "" ==> (Keep(p, search, page, lower) <==> MatchesSearch(p, search, lower))
    ensures search == "" && page.volume != AnyVolume && Keep(p, search, page, lower) ==> p.volume == page.volume
    ensures search == "" && page.category != Gifts && page.wineType == "" && page.volume == AnyVolume ==>
      Keep(p, search, page, lower)
  {
    if search != "" then MatchesSearch(p, search, lower)
    else
      && (page.category == Gifts ==> p.category == Gifts)
      && (page.category != Gifts && page.category == AllProducts && page.wineType != "" ==> p.wineType == page.wineType)
      && (page.volume != AnyVolume ==> p.volume == page.volume)
  }

  function FilteredWines(products: seq<Catalog.Product>, search: string, page: PageState,
                         lower: string -> string): (r: seq<Catalog.Product>)
    ensures forall i :: 0 <= i < |r| ==> r[i] in products && Keep(r[i], search, page, lower)
    ensures forall i :: 0 <= i < |products| && Keep(products[i], search, page, lower) ==> products[i] in r
  {
    Seqs.Filter(products, (p: Catalog.Product) => Keep(p, search, page, lower))
  }

  /**
   * With a search, a product is kept exactly when its folded name, type or
   * description contains the folded query, whatever the sidebar says.
   */
  lemma SearchOverridesSidebar(products: seq<Catalog.Product>, search: string, page: PageState, other: PageState,
                               lower: string -> string)
    requires search != ""
    ensures FilteredWines(products, search, page, lower) == FilteredWines(products, search, other, lower)
    ensures forall i :: 0 <= i < |products| ==>
      (products[i] in FilteredWines(products, search, page, lower) <==> MatchesSearch(products[i], search, lower))
  {
    var f := (p: Catalog.Product) => Keep(p, search, page, lower);
    var g := (p: Catalog.Product) => Keep(p, search, other, lower);
    Seqs.FilterCongruent(products, f, g);
  }

  /** Without a search, the gifts category keeps only gifts, and keeps every gift of the chosen volume. */
  lemma GiftsCategory(products: seq<Catalog.Product>, page: PageState, lower: string -> string)
    requires page.category == Gifts
    ensures var r := FilteredWines(products, "", page, lower);
      && (forall i :: 0 <= i < |r| ==> r[i].category == Gifts)
      && (forall i :: (0 <= i < |products| && products[i].category == Gifts
            && (page.volume == AnyVolume || products[i].volume == page.volume)) ==> products[i] in r)
  {
  }

  /** Without a search, "all products" with a wine type keeps exactly the products of that type (and volume). */
  lemma WineTypeSelection(products: seq<Catalog.Product>, page: PageState, lower: string -> string)
    requires page.category == AllProducts && page.wineType != ""
    ensures var r := FilteredWines(products, "", page, lower);
      && (forall i :: 0 <= i < |r| ==> r[i].wineType == page.wineType)
      && (forall i :: (0 <= i < |products| && products[i].wineType == page.wineType
            && (page.volume == AnyVolume || products[i].volume == page.volume)) ==> products[i] in r)
  {
  }

  /** Without a search, a volume filter other than "all" keeps only exact volume matches. */
  lemma VolumeFilter(products: seq<Catalog.Product>, page: PageState, lower: string -> string)
    requires page.volume != AnyVolume
    ensures var r := FilteredWines(products, "", page, lower);
      forall i :: 0 <= i < |r| ==> r[i].volume == page.volume
  {
  }

  /**
   * The result keeps the catalog's order; with no search, all products, no
   * type and any volume, it is the whole catalog.
   */
  lemma FilterShape(products: seq<Catalog.Product>, search: string, page: PageState, lower: string -> string)
    ensures Seqs.IsSubsequence(FilteredWines(products, search, page, lower), products)
    ensures FilteredWines(products, "", InitialPage, lower) == products
  {

    Seqs.FilterKeepsAll(products, (p: Catalog.Product) => Keep(p, "", InitialPage, lower));
  }

  /** Choosing a category always clears the wine type and expands the list only for "all products". */
  function CategoryClick(page: PageState, category: string): (r: PageState)
    ensures r.category == category && r.wineType == "" && r.volume == page.volume
    ensures r.allExpanded <==> category == AllProducts
  {
    page.(category := category, wineType := "", allExpanded := category == AllProducts)
  }

  /** Choosing a wine type always returns to "all products". */
  function WineTypeClick(page: PageState, wineType: string): (r: PageState)
    ensures r.category == AllProducts && r.wineType == wineType
    ensures r.volume == page.volume && r.allExpanded == page.allExpanded
  {
    page.(category := AllProducts, wineType := wineType)
  }

  function SearchTitle(search: string): string {
    "Kết quả tìm kiếm: \"" + search + "\""
  }

  /** What a new search does to the sidebar: the category becomes the search title and the type is cleared. */
  function OnSearch(page: PageState, search: string): (r: PageState)
    ensures search == "" ==> r == page
    ensures search != "" ==> r.category == SearchTitle(search) && r.wineType == ""
  {
    if search != "" then page.(category := SearchTitle(search), wineType := "") else page
  }

  /** The heading: the search, else the wine type, else the category. */
  function PageTitle(search: string, page: PageState): (t: string)
    ensures search != "" ==> t == SearchTitle(search)
    ensures search == "" && page.wineType != "" ==> t == page.wineType
    ensures search == "" && page.wineType == "" ==> t == page.category
  {
    if search != "" then SearchTitle(search)
    else if page.wineType != "" then page.wineType
    else page.category
  }

  /** After picking a wine type the heading is that type. */
  lemma TitleAfterWineType(page: PageState, wineType: string)
    requires wineType != ""
    ensures PageTitle("", WineTypeClick(page, wineType)) == wineType
  {
  }
}

=== FILE: register_api.dfy ===
/**
 * The registration endpoint: validates the posted name, email and password,
 * refuses an email that is already registered, stores the new account with
 * a trimmed name and a lower-cased, trimmed email, then reads the account
 * back and returns it.
 *
 * The handler looks the email up twice, before the insert and after it, and
 * both times uses the email exactly as posted, while the row stores the
 * normalised email. `Handle` takes the lookup key as a parameter:
 * `PostAsWritten` passes the posted email, `Post` passes the normalised one.
 */
module RegisterApi {
  import opened Wrappers
  import opened Decimal
  import Seqs

  // ---------------------------------------------------------------------------
  // Whitespace trimming (`String.prototype.trim`)

  /** The characters JavaScript's `trim` removes: WhiteSpace and LineTerminator of ECMA-262. */
  predicate IsJsSpace(c: char) {
    || c == '\t' || c == '\n' || c == '\U{000B}' || c == '\U{000C}' || c == '\r' || c == ' '
    || c == '\U{00A0}' || c == '\U{1680}' || ('\U{2000}' <= c <= '\U{200A}')
    || c == '\U{2028}' || c == '\U{2029}' || c == '\U{202F}' || c == '\U{205F}'
    || c == '\U{3000}' || c == '\U{FEFF}'
  }

  /** `s` without its leading whitespace. */
  function TrimStart(s: string): (r: string)
    ensures |r| <= |s| && r == s[|s| - |r|..]
    ensures forall i :: 0 <= i < |s| - |r| ==> IsJsSpace(s[i])
    ensures |r| > 0 ==> !IsJsSpace(r[0])
  {
    if |s| > 0 && IsJsSpace(s[0]) then TrimStart(s[1..]) else s
  }

  /** `s` without its trailing whitespace. */
  function TrimEnd(s: string): (r: string)
    ensures |r| <= |s| && r == s[..|r|]
    ensures forall i :: |r| <= i < |s| ==> IsJsSpace(s[i])
    ensures |r| > 0 ==> !IsJsSpace(r[|r| - 1])
  {
    if |s| > 0 && IsJsSpace(s[|s| - 1]) then TrimEnd(s[..|s| - 1]) else s
  }

  /** `s` without leading and trailing whitespace. */
  function Trim(s: string): (r: string)
    ensures |r| <= |s|
    ensures |r| > 0 ==> !IsJsSpace(r[0]) && !IsJsSpace(r[|r| - 1])
  {
    var t := TrimStart(s);
    var r := TrimEnd(t);
    assert |r| > 0 ==> r[0] == t[0];
    r
  }

  /**
   * Trimming cuts `s` into whitespace, the result, and whitespace: the
   * result is the slice of `s` starting at `start`, and everything before
   * and after it is whitespace. So the trim is empty exactly for an
   * all-whitespace string.
   */
  lemma TrimSlice(s: string) returns (start: nat)
    ensures start + |Trim(s)| <= |s| && Trim(s) == s[start..start + |Trim(s)|]
    ensures forall i :: 0 <= i < start ==> IsJsSpace(s[i])
    ensures forall i :: start + |Trim(s)| <= i < |s| ==> IsJsSpace(s[i])
    ensures |Trim(s)| == 0 <==> forall i :: 0 <= i < |s| ==> IsJsSpace(s[i])
  {
    var t := TrimStart(s);
    start := |s| - |t|;
    var r := TrimEnd(t);
    assert r == Trim(s);
    assert t == s[start..] && r == t[..|r|];
    assert r == s[start..start + |r|];
    forall i | start + |r| <= i < |s| ensures IsJsSpace(s[i]) {
      assert s[i] == t[i - start];
    }
  }

  /** A string that neither starts nor ends with whitespace is its own trim. */
  lemma TrimmedIsFixed(s: string)
    requires |s| > 0 ==> !IsJsSpace(s[0]) && !IsJsSpace(s[|s| - 1])
    ensures Trim(s) == s
  {
  }

  /** Trimming twice is trimming once. */
  lemma TrimIdempotent(s: string)
    ensures Trim(Trim(s)) == Trim(s)
  {
    TrimmedIsFixed(Trim(s));
  }

  // ---------------------------------------------------------------------------
  // The users table and the handler

  datatype UserRow = UserRow(
    id: nat, name: string, email: string, password: string, role: string, avatar: Option<string>, createdAt: int)

  /** The JSON body; absent keys are `None`. */
  datatype Body = Body(name: Option<string>, email: Option<string>, password: Option<string>)

  datatype ApiUser = ApiUser(id: string, name: string, email: string, avatar: Option<string>, role: string)

  datatype Reason = MissingFields | PasswordTooShort | LookupFailed | EmailInUse | InsertFailed | Unverified

  datatype Response = Registered(user: ApiUser) | Refused(reason: Reason)

  /** The HTTP status of each answer. */
  function Code(r: Response): int {
    match r
    case Registered(_) => 200
    case Refused(MissingFields) => 400
    case Refused(PasswordTooShort) => 400
    case Refused(LookupFailed) => 500
    case Refused(EmailInUse) => 409
    case Refused(InsertFailed) => 500
    case Refused(Unverified) => 500
  }

  const MinPasswordLength := 6
  const UserRole := "user"

  predicate Truthy(s: Option<string>) {
    s.Some? && s.value != ""
  }

  /** The stored form of an email: lower-cased, then trimmed (`StoredRowIsTrimmed`: already trimmed). */
  function Normalise(lower: string -> string, email: string): (r: string)
    ensures |r| <= |lower(email)|
  {
    Trim(lower(email))
  }

  function StoredForm(lower: string -> string): string -> string {
    (e: string) => Normalise(lower, e)
  }

  function HasEmail(email: string): UserRow -> bool {
    (u: UserRow) => u.email == email
  }

  /** The rows whose stored email is exactly `email` (the database's `eq`, which is case-sensitive). */
  function WithEmail(users: seq<UserRow>, email: string): (r: seq<UserRow>)
    ensures forall i :: 0 <= i < |r| ==> r[i].email == email
  {
    Seqs.Filter(users, HasEmail(email))
  }

  /** The row the handler inserts. */
  function NewRow(lower: string -> string, name: string, email: string, hash: string, newId: nat, now: int): (u: UserRow)
    ensures u.role == UserRole && u.avatar.None? && u.id == newId
    ensures u.name == Trim(name) && u.email == Normalise(lower, email) && u.password == hash
  {
    UserRow(newId, Trim(name), Normalise(lower, email), hash, UserRole, None, now)
  }

  /** The stored name and email are already trimmed: trimming them again changes nothing. */
  lemma StoredRowIsTrimmed(lower: string -> string, name: string, email: string, hash: string, newId: nat, now: int)
    ensures
      var u := NewRow(lower, name, email, hash, newId, now);
      Trim(u.name) == u.name && Trim(u.email) == u.email
  {
    TrimIdempotent(name);
    TrimIdempotent(lower(email));
  }

  /**
   * The handler with the email used for both lookups given as `key`.
   * `hash` is the password's bcrypt hash, `newId` the id the database
   * assigns, `now` the clock, and `lookupOk`, `insertOk`, `verifyOk` whether
   * each database call succeeds. A lookup expecting at most one row
   * (`maybeSingle`) fails on several; the read-back expecting exactly one
   * (`single`) fails on none or several.
   */
  function Handle(users: seq<UserRow>, body: Body, lower: string -> string, key: string -> string,
                  hash: string, newId: nat, now: int,
                  lookupOk: bool, insertOk: bool, verifyOk: bool): (out: (Response, seq<UserRow>))
    ensures out.1 == users || (
      && Truthy(body.name) && Truthy(body.email) && Truthy(body.password)
      && out.1 == users + [NewRow(lower, body.name.value, body.email.value, hash, newId, now)])
    ensures !(Truthy(body.name) && Truthy(body.email) && Truthy(body.password)) ==> out == (Refused(MissingFields), users)
    ensures Truthy(body.name) && Truthy(body.email) && Truthy(body.password) && |body.password.value| < MinPasswordLength ==>
      out == (Refused(PasswordTooShort), users)
    ensures out.0.Registered? ==> out.1 != users && Code(out.0) == 200
  {
    if !(Truthy(body.name) && Truthy(body.email) && Truthy(body.password)) then (Refused(MissingFields), users)
    else
      var name, email, password := body.name.value, body.email.value, body.password.value;
      if |password| < MinPasswordLength then (Refused(PasswordTooShort), users)
      else
        var existing := WithEmail(users, key(email));
        if !lookupOk || |existing| > 1 then (Refused(LookupFailed), users)
        else if |existing| == 1 then (Refused(EmailInUse), users)
        else if !insertOk then (Refused(InsertFailed), users)
        else
          var users' := users + [NewRow(lower, name, email, hash, newId, now)];
          var found := WithEmail(users', key(email));
          if !verifyOk || |found| != 1 then (Refused(Unverified), users')
          else
            var u := found[0];
            (Registered(ApiUser(NatToString(u.id), u.name, u.email, None, u.role)), users')
  }

  function Posted(email: string): string {
    email
  }

  /** The handler as written: both lookups use the email exactly as posted. */
  function PostAsWritten(users: seq<UserRow>, body: Body, lower: string -> string, hash: string, newId: nat, now: int,
                         lookupOk: bool, insertOk: bool, verifyOk: bool): (out: (Response, seq<UserRow>))
    ensures out.1 == users || |out.1| == |users| + 1
    ensures out.0.Registered? ==> body.email.Some? && out.0.user.email == body.email.value
  {
    Handle(users, body, lower, Posted, hash, newId, now, lookupOk, insertOk, verifyOk)
  }

  /** The handler with both lookups on the normalised email, as stored. */
  function Post(users: seq<UserRow>, body: Body, lower: string -> string, hash: string, newId: nat, now: int,
                lookupOk: bool, insertOk: bool, verifyOk: bool): (out: (Response, seq<UserRow>))
    ensures out.1 == users || |out.1| == |users| + 1
  {
    Handle(users, body, lower, StoredForm(lower), hash, newId, now, lookupOk, insertOk, verifyOk)
  }

  // ---------------------------------------------------------------------------
  // Properties of the corrected handler

  /** No two accounts share a stored email. */
  predicate UniqueEmails(users: seq<UserRow>) {
    forall i, j :: 0 <= i < j < |users| ==> users[i].email != users[j].email
  }

  /** The corrected handler never creates a second account with the same stored email. */
  lemma PostKeepsEmailsUnique(users: seq<UserRow>, body: Body, lower: string -> string, hash: string, newId: nat,
                              now: int, lookupOk: bool, insertOk: bool, verifyOk: bool)
    requires UniqueEmails(users)
    ensures UniqueEmails(Post(users, body, lower, hash, newId, now, lookupOk, insertOk, verifyOk).1)
  {
    var out := Post(users, body, lower, hash, newId, now, lookupOk, insertOk, verifyOk);
    if out.1 != users {
      var key := Normalise(lower, body.email.value);
      var row := NewRow(lower, body.name.value, body.email.value, hash, newId, now);
      assert WithEmail(users, key) == [];
      assert out.1 == users + [row];
    }
  }

  /**
   * With every database call succeeding, a valid registration under an
   * unused (normalised) email is accepted and returns the stored account.
   */
  lemma PostAcceptsNewEmail(users: seq<UserRow>, name: string, email: string, password: string,
                            lower: string -> string, hash: string, newId: nat, now: int)
    requires name != "" && email != "" && |password| >= MinPasswordLength
    requires forall i :: 0 <= i < |users| ==> users[i].email != Normalise(lower, email)
    ensures
      var out := Post(users, Body(Some(name), Some(email), Some(password)), lower, hash, newId, now, true, true, true);
      && out.0 == Registered(ApiUser(NatToString(newId), Trim(name), Normalise(lower, email), None, UserRole))
      && out.1 == users + [NewRow(lower, name, email, hash, newId, now)]
  {
    var key := Normalise(lower, email);
    var row := NewRow(lower, name, email, hash, newId, now);
    assert StoredForm(lower)(email) == key;
    Seqs.FilterDropsAll(users, HasEmail(key));
    Seqs.FilterAppend(users, [row], HasEmail(key));
    assert WithEmail(users + [row], key) == [row];
    HandleInserts(users, name, email, password, lower, StoredForm(lower), hash, newId, now);
  }

  /**
   * With the lookup succeeding, a registration whose normalised email is
   * already stored is refused with 409 and stores nothing.
   */
  lemma PostRefusesTakenEmail(users: seq<UserRow>, name: string, email: string, password: string,
                              lower: string -> string, hash: string, newId: nat, now: int,
                              insertOk: bool, verifyOk: bool)
    requires name != "" && email != "" && |password| >= MinPasswordLength
    requires UniqueEmails(users)
    requires exists i :: 0 <= i < |users| && users[i].email == Normalise(lower, email)
    ensures Post(users, Body(Some(name), Some(email), Some(password)), lower, hash, newId, now, true, insertOk, verifyOk)
      == (Refused(EmailInUse), users)
  {
    var key := Normalise(lower, email);
    assert StoredForm(lower)(email) == key;
    var i :| 0 <= i < |users| && users[i].email == key;
    assert users[i] in WithEmail(users, key);
    OneMatchAtMost(users, key);
  }

  /** Under unique emails an email matches at most one row. */
  lemma {:induction false} OneMatchAtMost(users: seq<UserRow>, email: string)
    requires UniqueEmails(users)
    ensures |WithEmail(users, email)| <= 1
  {
    if |users| > 0 {
      assert UniqueEmails(users[1..]);
      OneMatchAtMost(users[1..], email);
      if users[0].email == email {
        Seqs.FilterDropsAll(users[1..], HasEmail(email));
      }
    }
  }

  // ---------------------------------------------------------------------------
  // The handler as written

  /** Lower-casing of the ASCII letters, enough to exhibit the discrepancy. */
  function AsciiLower(s: string): (r: string)
    ensures |r| == |s|
  {
    if |s| == 0 then []
    else [if 'A' <= s[0] <= 'Z' then (s[0] as int + 32) as char else s[0]] + AsciiLower(s[1..])
  }

  lemma NormaliseUpperA()
    ensures Normalise(AsciiLower, "A") == "a"
  {
    assert AsciiLower("A") == "a";
    TrimmedIsFixed("a");
  }

  /** A valid registration whose key matches no row is inserted and then read back by the same key. */
  lemma HandleInserts(users: seq<UserRow>, name: string, email: string, password: string,
                      lower: string -> string, key: string -> string, hash: string, newId: nat, now: int)
    requires name != "" && email != "" && |password| >= MinPasswordLength
    requires WithEmail(users, key(email)) == []
    ensures
      var row := NewRow(lower, name, email, hash, newId, now);
      var out := Handle(users, Body(Some(name), Some(email), Some(password)), lower, key, hash, newId, now, true, true, true);
      && out.1 == users + [row]
      && (WithEmail(users + [row], key(email)) == [] ==> out.0 == Refused(Unverified))
  {
  }

  /**
   * Whenever the stored form of the posted email differs from it and no row
   * holds the posted email, the handler as written stores the account and
   * then answers 500, because the read-back looks for the posted email.
   */
  lemma {:induction false} AsWrittenUnverified(users: seq<UserRow>, name: string, email: string, password: string,
                                               lower: string -> string, hash: string, newId: nat, now: int)
    requires name != "" && email != "" && |password| >= MinPasswordLength
    requires WithEmail(users, email) == [] && Normalise(lower, email) != email
    ensures PostAsWritten(users, Body(Some(name), Some(email), Some(password)), lower, hash, newId, now, true, true, true)
      == (Refused(Unverified), users + [NewRow(lower, name, email, hash, newId, now)])
  {
    var row := NewRow(lower, name, email, hash, newId, now);
    assert Posted(email) == email;
    Seqs.FilterAppend(users, [row], HasEmail(email));
    Seqs.FilterDropsAll([row], HasEmail(email));
    HandleInserts(users, name, email, password, lower, Posted, hash, newId, now);
  }

  /**
   * Registering "A" creates the account "a" but then reads back "A", finds
   * nothing, and answers 500 although the account exists.
   */
  lemma AsWrittenCreatesUnverifiable()
    ensures
      var out := PostAsWritten([], Body(Some("An"), Some("A"), Some("secret")), AsciiLower, "h", 1, 0, true, true, true);
      && out.0 == Refused(Unverified) && Code(out.0) == 500
      && |out.1| == 1 && out.1[0].email == "a"
  {
    NormaliseUpperA();
    AsWrittenUnverified([], "An", "A", "secret", AsciiLower, "h", 1, 0);
  }

  /**
   * When an account already holds the stored form of the posted email but
   * none holds the posted email itself, the handler as written stores a
   * second account with the same email.
   */
  lemma AsWrittenDuplicates(users: seq<UserRow>, k: int, name: string, email: string, password: string,
                            lower: string -> string, hash: string, newId: nat, now: int)
    requires name != "" && email != "" && |password| >= MinPasswordLength
    requires WithEmail(users, email) == [] && Normalise(lower, email) != email
    requires 0 <= k < |users| && users[k].email == Normalise(lower, email)
    ensures !UniqueEmails(PostAsWritten(users, Body(Some(name), Some(email), Some(password)), lower, hash, newId, now,
                                        true, true, true).1)
  {
    AsWrittenUnverified(users, name, email, password, lower, hash, newId, now);
    var r := users + [NewRow(lower, name, email, hash, newId, now)];
    assert r[k].email == r[|users|].email;
  }

  /**
   * With "a" registered, registering "A" passes the duplicate check and
   * stores a second account "a".
   */
  lemma AsWrittenDuplicatesEmail()
    ensures
      var first := UserRow(1, "An", "a", "h", UserRole, None, 0);
      var out := PostAsWritten([first], Body(Some("An"), Some("A"), Some("secret")), AsciiLower, "h", 2, 0, true, true, true);
      && UniqueEmails([first])
      && !UniqueEmails(out.1)
  {
    var first := UserRow(1, "An", "a", "h", UserRole, None, 0);
    NormaliseUpperA();
    assert WithEmail([first], "A") == [];
    AsWrittenDuplicates([first], 0, "An", "A", "secret", AsciiLower, "h", 2, 0);
  }
}

=== FILE: seqs.dfy ===
/**
 * Order-preserving filtering over sequences: the model of JavaScript's
 * `Array.prototype.filter`, used by every "remove by id" and "orders of a
 * user" operation.
 */
module Seqs {

  /** `r` is obtained from `s` by deleting elements, keeping the relative order. */
  ghost predicate IsSubsequence<T>(r: seq<T>, s: seq<T>)
    decreases |s|
  {
    if |r| == 0 then true
    else if |s| == 0 then false
    else (r[0] == s[0] && IsSubsequence(r[1..], s[1..])) || IsSubsequence(r, s[1..])
  }

  /**
   * The elements of `s` that satisfy `keep`, in their original order: a
   * subsequence of `s` holding every kept element and nothing else
   * (`FilterCounts`: as often as `s` does).
   */
  function Filter<T>(s: seq<T>, keep: T -> bool): (r: seq<T>)
    ensures |r| <= |s|
    ensures forall i :: 0 <= i < |r| ==> r[i] in s && keep(r[i])
    ensures forall i :: 0 <= i < |s| && keep(s[i]) ==> s[i] in r
    ensures IsSubsequence(r, s)
  {
    if |s| == 0 then []
    else
      var rest := Filter(s[1..], keep);
      assert s == [s[0]] + s[1..];
      if keep(s[0]) then
        var r := [s[0]] + rest;
        assert r[0] == s[0] && r[1..] == rest;
        r
      else
        SubsequenceOfTail(rest, s);
        rest
  }

  /** A kept value occurs in the filtered sequence exactly as often as in `s`; a dropped one not at all. */
  lemma {:induction false} FilterCounts<T>(s: seq<T>, keep: T -> bool, x: T)
    ensures multiset(Filter(s, keep))[x] == if keep(x) then multiset(s)[x] else 0
  {
    if |s| > 0 {
      FilterCounts(s[1..], keep, x);
      assert s == [s[0]] + s[1..];
      assert multiset(s) == multiset{s[0]} + multiset(s[1..]);
      if keep(s[0]) {
        assert multiset(Filter(s, keep)) == multiset{s[0]} + multiset(Filter(s[1..], keep));
      }
    }
  }

  /** Filtering distributes over concatenation: the relative order of kept elements is preserved. */
  lemma {:induction false} FilterAppend<T>(a: seq<T>, b: seq<T>, keep: T -> bool)
    ensures Filter(a + b, keep) == Filter(a, keep) + Filter(b, keep)
  {
    if |a| == 0 {
      assert a + b == b;
    } else {
      assert (a + b)[1..] == a[1..] + b;
      FilterAppend(a[1..], b, keep);
    }
  }

  /** Every sequence is a subsequence of itself. */
  lemma {:induction false} SubsequenceRefl<T>(s: seq<T>)
    ensures IsSubsequence(s, s)
  {
    if |s| > 0 {
      SubsequenceRefl(s[1..]);
    }
  }

  lemma SubsequenceOfTail<T>(r: seq<T>, s: seq<T>)
    requires |s| > 0 && IsSubsequence(r, s[1..])
    ensures IsSubsequence(r, s)
  {
  }

  /** Elements with pairwise distinct keys keep distinct keys after filtering. */
  lemma {:induction false} FilterKeepsKeysDistinct<T, K>(s: seq<T>, keep: T -> bool, key: T -> K)
    requires KeysDistinct(s, key)
    ensures KeysDistinct(Filter(s, keep), key)
  {
    if |s| > 0 {
      var tail := s[1..];
      var rest := Filter(tail, keep);
      KeysDistinctTail(s, key);
      FilterKeepsKeysDistinct(tail, keep, key);
      if keep(s[0]) {
        assert Filter(s, keep) == [s[0]] + rest;
        forall j | 0 <= j < |rest| ensures key(rest[j]) != key(s[0]) {
          var m :| 0 <= m < |tail| && tail[m] == rest[j];
          assert s[m + 1] == rest[j];
        }
        KeysDistinctCons(s[0], rest, key);
      }
    }
  }

  /** No two elements of `s` share a key. */
  ghost predicate KeysDistinct<T, K>(s: seq<T>, key: T -> K) {
    forall i, j :: 0 <= i < j < |s| ==> key(s[i]) != key(s[j])
  }

  /** Dropping the head keeps keys distinct. */
  lemma KeysDistinctTail<T, K>(s: seq<T>, key: T -> K)
    requires |s| > 0 && KeysDistinct(s, key)
    ensures KeysDistinct(s[1..], key)
  {
    var tail := s[1..];
    forall i, j | 0 <= i < j < |tail| ensures key(tail[i]) != key(tail[j]) {
      assert tail[i] == s[i + 1] && tail[j] == s[j + 1];
    }
  }

  /** A head whose key differs from every key of a distinct-keyed tail keeps keys distinct. */
  lemma KeysDistinctCons<T, K>(x: T, rest: seq<T>, key: T -> K)
    requires KeysDistinct(rest, key)
    requires forall j :: 0 <= j < |rest| ==> key(rest[j]) != key(x)
    ensures KeysDistinct([x] + rest, key)
  {
    var r := [x] + rest;
    forall i, j | 0 <= i < j < |r| ensures key(r[i]) != key(r[j]) {
      assert r[j] == rest[j - 1];
      if i > 0 {
        assert r[i] == rest[i - 1];
      }
    }
  }

  /** When every element is kept, filtering is the identity. */
  lemma {:induction false} FilterKeepsAll<T>(s: seq<T>, keep: T -> bool)
    requires forall i :: 0 <= i < |s| ==> keep(s[i])
    ensures Filter(s, keep) == s
  {
    if |s| > 0 {
      FilterKeepsAll(s[1..], keep);
      assert [s[0]] + s[1..] == s;
    }
  }

  /** When no element is kept, filtering gives the empty sequence. */
  lemma {:induction false} FilterDropsAll<T>(s: seq<T>, keep: T -> bool)
    requires forall i :: 0 <= i < |s| ==> !keep(s[i])
    ensures Filter(s, keep) == []
  {
    if |s| > 0 {
      FilterDropsAll(s[1..], keep);
    }
  }

  /** Filtering twice by the same predicate is the same as filtering once. */
  lemma FilterIdempotent<T>(s: seq<T>, keep: T -> bool)
    ensures Filter(Filter(s, keep), keep) == Filter(s, keep)
  {
    FilterKeepsAll(Filter(s, keep), keep);
  }

  /** The number of elements of `s` satisfying `p`. */
  function CountWhere<T>(s: seq<T>, p: T -> bool): (n: nat)
    ensures n <= |s|
  {
    if |s| == 0 then 0 else (if p(s[0]) then 1 else 0) + CountWhere(s[1..], p)
  }

  /** Counting is the length of the filtered sequence (JavaScript's `filter(p).length`). */
  lemma {:induction false} CountIsFilterLength<T>(s: seq<T>, p: T -> bool)
    ensures CountWhere(s, p) == |Filter(s, p)|
  {
    if |s| > 0 {
      CountIsFilterLength(s[1..], p);
    }
  }

  /** Two lists whose elements pass their tests at the same positions have the same count. */
  lemma {:induction false} CountWhereAgree<A, B>(s: seq<A>, t: seq<B>, p: A -> bool, q: B -> bool)
    requires |s| == |t| && forall i :: 0 <= i < |s| ==> p(s[i]) == q(t[i])
    ensures CountWhere(s, p) == CountWhere(t, q)
  {
    if |s| > 0 {
      assert forall i :: 0 <= i < |s| - 1 ==> s[1..][i] == s[i + 1] && t[1..][i] == t[i + 1];
      CountWhereAgree(s[1..], t[1..], p, q);
    }
  }

  /** The position of the first element satisfying `p` (JavaScript's `find` / `findIndex`). */
  function FindIndex<T>(s: seq<T>, p: T -> bool): (r: int)
    ensures -1 <= r < |s|
    ensures r >= 0 ==> p(s[r]) && forall j :: 0 <= j < r ==> !p(s[j])
    ensures r == -1 <==> forall j :: 0 <= j < |s| ==> !p(s[j])
  {
    if |s| == 0 then -1
    else if p(s[0]) then 0
    else
      var k := FindIndex(s[1..], p);
      if k == -1 then -1 else k + 1
  }

  /** Two tests that agree on every element filter alike. */
  lemma {:induction false} FilterCongruent<T>(s: seq<T>, f: T -> bool, g: T -> bool)
    requires forall i :: 0 <= i < |s| ==> f(s[i]) == g(s[i])
    ensures Filter(s, f) == Filter(s, g)
  {
    if |s| > 0 {
      FilterCongruent(s[1..], f, g);
    }
  }
}

=== FILE: wrappers.dfy ===
/** Optional values: the model's stand-in for `undefined` / `null`. */
module Wrappers {

  datatype Option<+T> = None | Some(value: T) {

    /** The value, or `default` when absent (JavaScript's `x ?? default`). */
    function GetOr(default: T): T {
      match this
      case Some(v) => v
      case None => default
    }
  }
}
